=== FILE: README.md ===
# rCore chapter-3 control core in Dafny

This project models the control core of a small time-sharing RISC-V kernel. Applications are loaded statically. The kernel runs them in round-robin order and preempts them with a timer. It charges each task's CPU time to a kernel bucket and a user bucket. Three pieces are modelled:

- **The task manager.** This is a fixed table of task control blocks, the current task id and three timestamps. The operations are boot initialisation, `run_first_task`, suspend, exit, the round-robin `find_next_task` and `run_next_task`, and the time-accounting updates. Modules `Task`, `Scheduler` and `TimeAccounting` cover it.
- **The trap dispatcher.** It classifies a trap by the SPP bit of `sstatus` (section 4.1.1 of the RISC-V Privileged Architecture) and by `scause` (section 4.1.8). From that it plans the context update and the ordered effects on the rest of the kernel. The kernel-interrupt flag is a one-bit monotone state. Modules `Trap` and `KernelTrap` cover this. Module `Machine` runs a plan against the task manager, the flag and the set of tasks that have ever run, so invariants can be stated for a whole trap. A switch back to a task that has run before resumes that task's kernel flow after `__switch`. That flow measures the switch cost and then finishes its own trap handler with the closing kernel-time update. A switch into a task that has never run starts it from the context seeded at boot (os/src/task/mod.rs:70). That context returns straight to user mode, so the rest of the handler never runs.
- **The `sys_write` validator.** It checks the descriptor and requires that both endpoints of the buffer lie in the user-stack window or in the address-space window. An accepted payload must be well-formed UTF-8 (section 4 of RFC 3629). Modules `Fs` and `Utf8` cover it.

Machine words are modelled as 64-bit `usize` and `isize` with explicit wrap-around (module `MachineWord`). The kernel is built without overflow checks, so `sepc + 4`, the time-bucket sums, `sp_top - size` and `buf + len` all wrap.

Clock readings, the two windows `crate::batch` reports, user memory and the system-call dispatcher are all parameters. The register-swap primitive `__switch` and the power-off are abstract outcomes of `Task.RunNextTask`.

Three facts about the code shape the model:

- The boot table turns every one of the `MAX_APP_NUM` slots Ready, not only the loaded ones (os/src/task/mod.rs:63-72). `Task.Init` therefore takes the table size `maxApp` as a parameter.
- The scan in `find_next_task` covers `current+1 ..= current+num_app` modulo `num_app` (os/src/task/mod.rs:137-139). That range includes the current task itself, as the last id visited (`Scheduler.CurrentConsideredLast`). The doc comment at os/src/task/mod.rs:131-133 says the first Ready task in the list is returned; the code returns the first Ready task in this cyclic order.
- `sys_write` compares both endpoints with a half-open `Range::contains` (os/src/syscall/fs.rs:13-24). A buffer whose end address equals a window's top is therefore refused.

`Task.UpdateCurrentTaskKernelTime` and `Task.UpdateCurrentTaskUserTime` are the two instances of `Task.UpdateCurrentTaskTime`. `Task.UpdateSystemTimeStamp` and `Task.UpdateTaskSwitchTimestamp` are single-field updates. Their properties are stated on the members that use them.

## Model

| member | source | states |
|---|---|---|
| Task.Init | os/src/task/mod.rs:61-85 | every one of the `maxApp` slots is Ready with both buckets zero, task 0 is current and all three timestamps are zero; the table is well formed when the app count fits |
| Task.RunFirstTask | os/src/task/mod.rs:93-109 | task 0 becomes Running with its buckets kept, every other slot is untouched, both clocks are stamped, and no other field, the switch-time total included, changes; from the boot table with at least one app, exactly one task runs and it is task 0 |
| Task.MarkCurrentSuspended | os/src/task/mod.rs:112-117 | only the current slot's status changes, to Ready; buckets, other slots, current id and timestamps are unchanged |
| Task.MarkCurrentExited | os/src/task/mod.rs:120-129 | only the current slot's status changes, to Exited; everything else is unchanged |
| Task.Distance | os/src/task/mod.rs:137-138 | every id below `num_app` is reached by the cyclic scan at an offset in `1..num_app`, and the current id at offset `num_app`, the last one visited; that no other offset reaches it is `Task.OffsetUnique` |
| Task.OffsetUnique | os/src/task/mod.rs:137-138 | offset to id and back is the identity: two offsets in `1..num_app` never reach the same id |
| Task.FindOffsetFrom | os/src/task/mod.rs:137-139 | the returned offset reaches a Ready task and every earlier offset does not; `None` means no offset in range reaches one |
| Task.FindNextTask | os/src/task/mod.rs:134-140 | a returned id is a loaded app that is Ready; the result is `None` if and only if no loaded app is Ready |
| Task.FindNextTaskIsNearestReady | os/src/task/mod.rs:134-140 | the chosen id is the first Ready app in cyclic order after the current task: no Ready app lies at a smaller scan distance |
| Task.RunNextTask | os/src/task/mod.rs:144-167 | it shuts down exactly when no loaded app is Ready, and then changes nothing; otherwise it switches from the current task to the task `find_next_task` picks, a Ready loaded app, marks it Running, makes it current, stamps the switch, and leaves every other slot and both buckets of the new task alone |
| Task.SuspendCurrentAndRunNext | os/src/task/mod.rs:227-230 | the table keeps its size and app count and stays well formed; a switch goes from the current task to the task `find_next_task` picks once the current task is Ready again |
| Task.ExitCurrentAndRunNext | os/src/task/mod.rs:233-236 | the exiting task ends Exited, and any task switched to is a different loaded app that was Ready, the one `find_next_task` picks once the current task is Exited |
| Task.UpdateCurrentTaskTime | os/src/task/mod.rs:169-185 | modulo 2^64 exactly one bucket of the current task grows by the time since the last stamp, and the stamp moves to now; the other bucket, the status, every other slot and every other field stay as they were |
| Task.CalTaskSwitchCost | os/src/task/mod.rs:197-203 | the gap is the time since the switch stamp, exact on a clock that has not gone back and the wrapped difference on one that has; modulo 2^64 the running total grows by exactly the gap; nothing else changes |
| Scheduler.BootStartsScheduling | os/src/task/mod.rs:93-96 | after boot and `run_first_task`, exactly one task is Running, it is task 0 and current, and every other slot is Ready |
| Scheduler.SuspendKeepsScheduling | os/src/task/mod.rs:227-230 | a yield always switches, from the current task to a task that is not Exited, keeps exactly one task Running as the current one, and leaves every Exited task Exited |
| Scheduler.ExitKeepsScheduling | os/src/task/mod.rs:233-236 | after an exit the machine shuts down if and only if no other loaded app is Ready; otherwise it switches to a Ready app with exactly one task Running as current; every Exited task stays Exited |
| Scheduler.CurrentConsideredLast | os/src/task/mod.rs:137-139 | the current task is chosen again only when no other loaded app is Ready |
| Scheduler.RoundRobinStep | os/src/task/mod.rs:134-167 | with every loaded app alive, a yield hands the processor to the next id `(current + 1) % num_app` and every app stays alive |
| Scheduler.YieldRounds | os/src/task/mod.rs:227-230 | any number of consecutive yields keeps exactly one task Running as current, and records one switch per yield |
| Scheduler.CyclicSweepIsPermutation | os/src/task/mod.rs:137-138 | `num_app` consecutive cyclic ids after any start are all ids below `num_app`, each once |
| Scheduler.RoundRobinSweep | os/src/task/mod.rs:134-167 | with every loaded app alive, the j-th of any run of yields switches to the id j steps after the starting task |
| Scheduler.SweepRunsEachTaskOnce | os/src/task/mod.rs:134-167 | with every loaded app alive, `num_app` consecutive yields run every loaded app exactly once |
| TimeAccounting.BootStartsEpoch | os/src/task/mod.rs:93-104 | `run_first_task` on the boot table starts the accounting epoch: the buckets sum to zero time since its clock read |
| TimeAccounting.UpdateConservesTime | os/src/task/mod.rs:169-185 | on a clock that has not gone back, the chosen bucket grows by exactly the elapsed milliseconds with no wrap, and all buckets of all tasks still sum to the time from the epoch to the new stamp |
| TimeAccounting.UpdateConservesTimeModulo | os/src/task/mod.rs:169-185 | whatever the clock reads, the bucket sum equals the time since the epoch modulo 2^64 |
| TimeAccounting.MeasuredSwitchCost | os/src/task/mod.rs:192-203 | stamping a switch and then measuring it on a clock that has not gone back reports the elapsed microseconds, and the total grows by exactly that, never decreasing |
| KernelTrap.MarkKernelInterruptTriggered | os/src/trap/kernel_trap.rs:12-16 | afterwards the check reads true, and marking a marked flag changes nothing, so marking twice equals marking once |
| KernelTrap.Apply | os/src/trap/kernel_trap.rs:7-16 | a check leaves the flag as it was, and no operation clears a set flag |
| KernelTrap.ReadingsSeeEveryMark | os/src/trap/kernel_trap.rs:1-16 | after any sequence of operations, the check reads true if and only if the flag started set or a mark has run |
| KernelTrap.ReadingsMonotone | os/src/trap/kernel_trap.rs:1-16 | once a check reads true, every later check reads true |
| Trap.DecodeScause | os/src/trap/mod.rs:68-70 | the top bit of `scause` selects interrupt or exception, and the decoded cause re-encodes to the same word |
| Trap.Classify | os/src/trap/mod.rs:64-120 | the kernel halts exactly when the cause is neither a timer interrupt nor, from user mode, an environment call, store fault, store page fault or illegal instruction; from supervisor mode only the timer is survivable; a user timer preempts; a user environment call, and only that, is a system call; a user store fault, store page fault or illegal instruction, and only those, kill the task |
| MachineWord.CastsRoundTrip | os/src/trap/mod.rs:73 | a `usize` read as `isize` and cast back is unchanged, so the `len as isize` that `sys_write` returns (os/src/syscall/fs.rs:32) reaches `a0` as `len` |
| Trap.EnvCall | os/src/trap/mod.rs:71-74 | `sepc` advances by 4 with wrap-around, `a0` holds the dispatcher's result on `a7, a0, a1, a2` read back as signed, and every other register and `sstatus` is unchanged |
| Trap.UserTrapHandler | os/src/trap/mod.rs:64-99 | a panic comes exactly for unsupported causes and only after the user-time update; every path that returns updates user time first and kernel time last, each once; only an environment call changes the context; the exact effect list of each path is given: the system call alone between the two updates, exit-and-run-next alone for store faults and illegal instructions, and for the timer the rearm followed by suspend-and-run-next, never an exit |
| Trap.KernelTrapHandler | os/src/trap/mod.rs:102-120 | it returns exactly for a timer interrupt, with the same context and the two effects in source order, marking the flag and then rearming the timer, and touches no task state or accounting; every other cause panics with no effect |
| Trap.TrapHandler | os/src/trap/mod.rs:55-61 | the saved privilege alone selects the user or kernel handler, and a returned context differs from the one given only for a user environment call |
| Machine.Boot | os/src/task/mod.rs:93-109 | the state `run_first_task` leaves on the boot table: exactly task 0 Running and current, the only task that has run, the flag clear, and zero time charged since the first stamp |
| Machine.AfterSwitch | os/src/task/mod.rs:145-166 | a switch to a task that has run before resumes its flow, which adds the measured switch cost and changes nothing else; a switch to a task never run enters it and records it as started; a shutdown ends the flow; the table and the flag are as the switch left them |
| Machine.ApplyEffect | os/src/trap/mod.rs:66-97 | any one effect keeps the task table well formed, its size and its app count; only the two switching effects can leave this flow or start a task |
| Machine.Execute | os/src/trap/mod.rs:64-99 | running any plan keeps the task table well formed, its size and its app count, and never forgets a started task; a plan without a switch always runs to its end and starts no task |
| Machine.HandleTrap | os/src/trap/mod.rs:55-120 | a trap halts the kernel exactly when its handler panics; when it resumes the interrupted flow it returns the context the handler planned; a trap taken in the kernel never switches tasks or starts one |
| Machine.SwitchCostMeasured | os/src/task/mod.rs:156-161 | a switch back to a task that has run before adds to the total switch time exactly the microseconds between the switch stamp and the resumed flow's clock read; a switch into a task never run, or a shutdown, adds nothing |
| Machine.ExecuteKeepsScheduling | os/src/trap/mod.rs:64-99 | running any plan from a scheduling state keeps exactly one task Running as current unless it powers off, powers off only when no loaded app is Ready, and never revives an Exited task |
| Machine.ExecuteConservesTime | os/src/trap/mod.rs:66-97 | on a clock that never goes back, after any plan the buckets of all tasks still sum to the time from the epoch to the last stamp |
| Machine.ExecuteConservesTimeModulo | os/src/trap/mod.rs:66-97 | on any clock, the same sum holds modulo 2^64 |
| Machine.ExecuteKeepsFlag | os/src/trap/kernel_trap.rs:1-16 | no plan clears the kernel-interrupt flag |
| Machine.KernelTimerOnlyMarks | os/src/trap/mod.rs:107-111 | a timer interrupt taken in the kernel resumes the same context with the flag set and the task manager exactly as it was |
| Machine.TrapKeepsInvariants | os/src/trap/mod.rs:55-120 | every trap, from either mode and however it ends, keeps exactly one task Running as current when it resumes a flow or starts a task, powers off only when no loaded app is Ready, keeps Exited tasks Exited, never clears the flag, and conserves time on a monotone clock |
| Utf8.HeadLength | os/src/syscall/fs.rs:30 | the length of a well-formed leading character is between 1 and 4, never past the input, and is 1 exactly for an ASCII byte |
| Utf8.AsciiIsValid | os/src/syscall/fs.rs:30 | a payload of ASCII bytes is always well-formed text, so printing it never panics |
| Fs.ReadBytes | os/src/syscall/fs.rs:29 | the slice has `len` bytes and byte `i` is memory at `buf + i` |
| Fs.Emit | os/src/syscall/fs.rs:29-32 | an accepted payload panics exactly when it is not well-formed UTF-8, and otherwise is printed whole and answered with `len as isize` |
| Fs.SysWrite | os/src/syscall/fs.rs:7-39 | as written: any descriptor other than 1 gets -1 and no output; for descriptor 1 a buffer failing the wrapping endpoint test gets -1 and no output, and one passing it is emitted |
| Fs.WrappedBufferAccepted | os/src/syscall/fs.rs:22-24 | as written, a buffer whose `buf + len` wraps passes the endpoint test although its region leaves every window, and the call is not refused |
| Fs.SysWriteChecked | os/src/syscall/fs.rs:7-39 | corrected: descriptor other than 1 gets -1; a write to descriptor 1 is honoured if and only if the whole region `[buf, buf + len]` lies in one window, and then it emits exactly the `len` bytes from `buf` on, in order, with `len as isize` returned, or panics on ill-formed text |
| Fs.AcceptedIsRegion | os/src/syscall/fs.rs:13-24 | with the end computed without wrap, both endpoints in a window holds if and only if every address between them is in that window |
| Fs.AgreesWithoutOverflow | os/src/syscall/fs.rs:22-27 | whenever `buf + len` does not overflow, the code as written and the corrected version give the same outcome |
| Fs.StackTopRefused | os/src/syscall/fs.rs:13-24 | the windows are half-open: a buffer ending exactly at the stack top is refused, unless the address-space window holds that end |
| Fs.AddressSpaceTopRefused | os/src/syscall/fs.rs:13-24 | a buffer ending exactly at the top of the address space is refused by both versions, unless the stack window holds that end |
| Fs.StraddlingRefused | os/src/syscall/fs.rs:22-24 | a buffer starting only in the stack window and ending only in the address-space window is refused by both versions |
| Fs.StraddlingReverseRefused | os/src/syscall/fs.rs:22-24 | a buffer starting only in the address-space window and ending only in the stack window is refused by both versions |
| Fs.OversizedStackWindowEmpty | os/src/syscall/fs.rs:11-13 | a stack size above the stack top wraps the bottom above the top and leaves the stack window empty |
| Fs.AsciiWriteSucceeds | os/src/syscall/fs.rs:29-32 | an ASCII payload whose region lies in a window is printed whole and its length returned |

## Left out

- `__switch`, `TaskContext` and the saved registers beyond `sepc`, `a0`-`a2` and `a7`: the register swap is an opaque primitive. A switch is the `Switched` outcome. Which flow continues is decided by whether the task switched to has run before (`Machine.AfterSwitch`).
- Machine.HandleTrap: after a switch back to a task that has run before, the trap is shown returning with the context this handler planned. Each task's own saved trap context is not modelled. The resumed flow's remaining effects are taken to be this handler's remaining effects; in both switching paths of the user handler that is the single closing kernel-time update. A system call that itself switches tasks is not covered (see the dispatcher line below).
- Machine.HandleTrap: the resumed flow reads the microsecond clock for the switch cost and the millisecond clock for the closing kernel-time update as one `Reading`.
- `UPSafeCell`, `lazy_static` and the volatile static: the global state is an explicit value.
- `get_num_app` and `init_app_cx` (from `crate::loader`), `MAX_APP_NUM` (from `crate::config`, os/src/task/mod.rs:18) and `get_user_stack_sp`, `get_user_stack_sp_size` and `get_app_address_space` (from `crate::batch`, os/src/syscall/fs.rs:3) are not part of this model. Their results are parameters: the app count, the table size and the two windows.
- The timer (`get_time_ms`, `get_time_us`, `set_next_trigger`): clock values are parameters, and rearming the timer is an effect with no state.
- `sbi::shutdown`: power-off is the `Shutdown` outcome.
- Console output (`println!`, `print!`): the text a `sys_write` prints is its `output` field, and diagnostics are not modelled.
- `trap::init` and `enable_timer_interrupt`: these are CSR writes with no logic.
- The body of the system-call dispatcher is not part of this model. It is a pure function parameter, so its side effects (another `sys_write`, an exit or a yield issued as a system call) are not folded into the trap.
- Task.SuspendCurrentAndRunNext: its own contract keeps the table well formed and names the task switched to. The scheduling properties of a yield are stated in `Scheduler.SuspendKeepsScheduling` and `Scheduler.RoundRobinStep`.
- Task.FindNextTask: `current + num_app + 1` is computed on unbounded integers. A `current` near 2^64 cannot occur, because `current` indexes the table.
- Task.WellFormed: every task-manager operation assumes `num_app <= MAX_APP_NUM`. The source does not check this. With more apps than slots, the scan of `find_next_task` would index past the table and panic (os/src/task/mod.rs:139). That panic is not modelled.
- Task.UpdateCurrentTaskTime: a clock that goes backwards wraps the gap. Only the modulo-2^64 relation is stated for that case (`TimeAccounting.UpdateConservesTimeModulo`).
- Fs.SysWrite: the panic on a non-UTF-8 payload is the outcome `Panicked`. What `print!` does with the string is left out.
- Debug builds panic on `usize` overflow instead of wrapping. Only the release-build wrap-around is modelled.

## Findings

| source | as written | input that shows it | evidently intended | confidence | as-written member | corrected member |
|---|---|---|---|---|---|---|
| os/src/syscall/fs.rs:22-24 | the end address `buf as usize + len` is a wrapping `usize` sum, so only the two endpoints, after wrap-around, are tested | stack window `[0x1000, 0x2000)`, `buf = 0x1800`, `len = 2^64 - 0x800`: the end wraps to `0x1000`, which is inside the window; the call reads far past the window and returns `-0x800` or panics instead of -1 | refuse any buffer whose region `[buf, buf + len]` does not lie inside one window, i.e. compute the end without wrap-around (`checked_add`) | high, by proof; not executed | Fs.WrappedBufferAccepted | Fs.SysWriteChecked |

=== FILE: fs.dfy ===
/** `sys_write`: the only system call with a user-supplied pointer. The request is
    honoured only for standard output and only when both the first address of the
    buffer and the address `len` bytes past it lie inside one of the two windows the
    running task may read, its user stack `[top - size, top)` or its loaded address
    space `[low, high)`. Both windows use Rust's half-open `Range::contains`.

    The windows come from the batch module and user memory is read through a function;
    printing is modelled by the bytes the call emits.
 */
module Fs {
  import opened MachineWord
  import Utf8

  /** File descriptor 1, the only one `sys_write` serves. */
  const FD_STDOUT: Usize := 1

  /** The result of every refused write. */
  const WRITE_REFUSED: Isize := -1

  /** The windows the batch module reports for the running task. */
  datatype UserWindows = UserWindows(stackTop: Usize, stackSize: Usize, asLow: Usize, asHigh: Usize)

  /** User memory, byte-addressed. */
  type Memory = Usize -> Byte

  /** Either the call returns, having emitted `output` on the console, or the kernel
      panics because the bytes are not well-formed text. */
  datatype WriteOutcome = Returned(ret: Isize, output: seq<Byte>) | Panicked

  /** `Range::contains` on `lo..hi`. */
  predicate InRange(lo: int, hi: int, a: int) {
    lo <= a < hi
  }

  /** The stack window's lower end, with the subtraction wrapping as on `usize`. */
  function StackBottom(w: UserWindows): (bottom: Usize) {
    WrappingSub(w.stackTop, w.stackSize)
  }

  /** The test `sys_write` applies: the buffer's start and the address `end` both in
      the stack window, or both in the address-space window. */
  predicate EndpointsInWindows(w: UserWindows, buf: Usize, end: int) {
    || (InRange(StackBottom(w), w.stackTop, buf) && InRange(StackBottom(w), w.stackTop, end))
    || (InRange(w.asLow, w.asHigh, buf) && InRange(w.asLow, w.asHigh, end))
  }

  /** The independent reading of "the buffer may be read": every address from `buf`
      to `buf + len`, both included, lies in `[lo, hi)`. */
  predicate RegionInWindow(lo: int, hi: int, buf: int, len: int) {
    forall a :: buf <= a <= buf + len ==> InRange(lo, hi, a)
  }

  predicate RegionInWindows(w: UserWindows, buf: Usize, len: Usize) {
    RegionInWindow(StackBottom(w), w.stackTop, buf, len) || RegionInWindow(w.asLow, w.asHigh, buf, len)
  }

  /** The `len` bytes starting at `buf`, addresses wrapping as the raw pointer would. */
  function ReadBytes(mem: Memory, buf: Usize, len: Usize): (r: seq<Byte>)
    ensures |r| == len
    ensures forall i :: 0 <= i < len && buf + i < USIZE_MODULUS ==> r[i] == mem(buf + i)
  {
    var r := seq<Byte>(len, i requires 0 <= i < len => mem(WrappingAdd(buf, i)));
    assert forall i :: 0 <= i < len ==> r[i] == mem(WrappingAdd(buf, i));
    r
  }

  /** What an accepted write does: emit the bytes if they are text, else panic. */
  function Emit(mem: Memory, buf: Usize, len: Usize): (r: WriteOutcome)
    ensures r.Panicked? <==> !Utf8.Valid(ReadBytes(mem, buf, len))
    ensures r.Returned? ==> r.output == ReadBytes(mem, buf, len) && r.ret == UsizeAsIsize(len)
  {
    var bytes := ReadBytes(mem, buf, len);
    if Utf8.Valid(bytes) then Returned(UsizeAsIsize(len), bytes) else Panicked
  }

  // ---------------------------------------------------------------- as written

  /** The window test as written: the end address `buf + len` is a `usize` sum and
      wraps around. */
  predicate AcceptedAsWritten(w: UserWindows, buf: Usize, len: Usize) {
    EndpointsInWindows(w, buf, WrappingAdd(buf, len))
  }

  /** `sys_write` as written. */
  function SysWrite(fd: Usize, buf: Usize, len: Usize, w: UserWindows, mem: Memory): (r: WriteOutcome)
    ensures fd != FD_STDOUT ==> r == Returned(WRITE_REFUSED, [])
    ensures fd == FD_STDOUT && !AcceptedAsWritten(w, buf, len) ==> r == Returned(WRITE_REFUSED, [])
    ensures fd == FD_STDOUT && AcceptedAsWritten(w, buf, len) ==> r == Emit(mem, buf, len)
  {
    if fd != FD_STDOUT || !AcceptedAsWritten(w, buf, len) then Returned(WRITE_REFUSED, [])
    else Emit(mem, buf, len)
  }

  /** A buffer that wraps past the top of memory passes the test: with the stack at
      `[0x1000, 0x2000)`, the start 0x1800 and length `2^64 - 0x800` put the wrapped end
      at 0x1000, inside the window, yet the region runs far beyond it. The call is not
      refused: it reads that region and returns `-0x800` or panics. */
  lemma WrappedBufferAccepted(mem: Memory)
    ensures var w := UserWindows(0x2000, 0x1000, 0, 0);
            var buf := 0x1800;
            var len := USIZE_MODULUS - 0x800;
            && AcceptedAsWritten(w, buf, len)
            && !RegionInWindows(w, buf, len)
            && SysWrite(FD_STDOUT, buf, len, w, mem) != Returned(WRITE_REFUSED, [])
  {
    var w := UserWindows(0x2000, 0x1000, 0, 0);
    var buf := 0x1800;
    var len := USIZE_MODULUS - 0x800;
    assert AcceptedAsWritten(w, buf, len);
    assert !InRange(StackBottom(w), w.stackTop, 0x2000);
    assert !RegionInWindow(StackBottom(w), w.stackTop, buf, len);
    assert !InRange(w.asLow, w.asHigh, buf);
    assert !RegionInWindows(w, buf, len);
    assert UsizeAsIsize(len) == -0x800;
    assert SysWrite(FD_STDOUT, buf, len, w, mem) != Returned(WRITE_REFUSED, []);
  }

  // ---------------------------------------------------------------- corrected

  /** The window test with the end address computed without wrap-around. */
  predicate Accepted(w: UserWindows, buf: Usize, len: Usize) {
    EndpointsInWindows(w, buf, buf + len)
  }

  /** `sys_write` with the end address computed without wrap-around. A write is
      honoured only when the whole region lies in one window; it then emits exactly
      the `len` bytes from `buf` on, in order, and returns `len`. */
  function SysWriteChecked(fd: Usize, buf: Usize, len: Usize, w: UserWindows, mem: Memory): (r: WriteOutcome)
    ensures fd != FD_STDOUT ==> r == Returned(WRITE_REFUSED, [])
    ensures r != Returned(WRITE_REFUSED, []) ==> fd == FD_STDOUT && RegionInWindows(w, buf, len)
    ensures fd == FD_STDOUT && !RegionInWindows(w, buf, len) ==> r == Returned(WRITE_REFUSED, [])
    ensures fd == FD_STDOUT && RegionInWindows(w, buf, len) ==> r == Emit(mem, buf, len)
    ensures r.Returned? && r != Returned(WRITE_REFUSED, []) ==>
              && buf + len < USIZE_MODULUS
              && |r.output| == len && r.ret == UsizeAsIsize(len)
              && forall i :: 0 <= i < len ==> r.output[i] == mem(buf + i)
  {
    AcceptedIsRegion(w, buf, len);
    if fd != FD_STDOUT || !Accepted(w, buf, len) then Returned(WRITE_REFUSED, [])
    else Emit(mem, buf, len)
  }

  /** The endpoint test is exactly the region test once the end is not wrapped. */
  lemma AcceptedIsRegion(w: UserWindows, buf: Usize, len: Usize)
    ensures Accepted(w, buf, len) <==> RegionInWindows(w, buf, len)
    ensures Accepted(w, buf, len) ==> buf + len < USIZE_MODULUS
  {
  }

  /** Whenever `buf + len` does not overflow, the code as written and the corrected
      test agree: the two differ only on wrapping buffers. */
  lemma AgreesWithoutOverflow(fd: Usize, buf: Usize, len: Usize, w: UserWindows, mem: Memory)
    requires buf + len < USIZE_MODULUS
    ensures SysWrite(fd, buf, len, w, mem) == SysWriteChecked(fd, buf, len, w, mem)
  {
  }

  /** Half-open windows: a buffer that ends exactly at the top of the stack window is
      refused unless the address-space window holds it. */
  lemma StackTopRefused(buf: Usize, len: Usize, w: UserWindows, mem: Memory)
    requires buf + len == w.stackTop && !InRange(w.asLow, w.asHigh, buf + len)
    ensures SysWriteChecked(FD_STDOUT, buf, len, w, mem) == Returned(WRITE_REFUSED, [])
    ensures SysWrite(FD_STDOUT, buf, len, w, mem) == Returned(WRITE_REFUSED, [])
  {
  }

  /** The same for the address-space window: a buffer that ends exactly at its top is
      refused unless the stack window holds that address. */
  lemma AddressSpaceTopRefused(buf: Usize, len: Usize, w: UserWindows, mem: Memory)
    requires buf + len == w.asHigh && !InRange(StackBottom(w), w.stackTop, buf + len)
    ensures SysWriteChecked(FD_STDOUT, buf, len, w, mem) == Returned(WRITE_REFUSED, [])
    ensures SysWrite(FD_STDOUT, buf, len, w, mem) == Returned(WRITE_REFUSED, [])
  {
  }

  /** A buffer that starts in one window and ends in the other, in neither window as
      a whole, is refused. */
  lemma StraddlingRefused(buf: Usize, len: Usize, w: UserWindows, mem: Memory)
    requires InRange(StackBottom(w), w.stackTop, buf) && !InRange(w.asLow, w.asHigh, buf)
    requires buf + len < USIZE_MODULUS
    requires InRange(w.asLow, w.asHigh, buf + len) && !InRange(StackBottom(w), w.stackTop, buf + len)
    ensures SysWriteChecked(FD_STDOUT, buf, len, w, mem) == Returned(WRITE_REFUSED, [])
    ensures SysWrite(FD_STDOUT, buf, len, w, mem) == Returned(WRITE_REFUSED, [])
  {
  }

  /** The other way round: starting only in the address-space window and ending only
      in the stack window is refused too. */
  lemma StraddlingReverseRefused(buf: Usize, len: Usize, w: UserWindows, mem: Memory)
    requires InRange(w.asLow, w.asHigh, buf) && !InRange(StackBottom(w), w.stackTop, buf)
    requires buf + len < USIZE_MODULUS
    requires InRange(StackBottom(w), w.stackTop, buf + len) && !InRange(w.asLow, w.asHigh, buf + len)
    ensures SysWriteChecked(FD_STDOUT, buf, len, w, mem) == Returned(WRITE_REFUSED, [])
    ensures SysWrite(FD_STDOUT, buf, len, w, mem) == Returned(WRITE_REFUSED, [])
  {
  }

  /** A stack size larger than the stack top leaves an empty stack window, since the
      bottom wraps above the top; only the address-space window can then admit a write. */
  lemma OversizedStackWindowEmpty(w: UserWindows, a: int)
    requires w.stackSize > w.stackTop
    ensures !InRange(StackBottom(w), w.stackTop, a)
  {
  }

  /** A plain ASCII payload inside a window is printed whole and its length returned. */
  lemma AsciiWriteSucceeds(buf: Usize, len: Usize, w: UserWindows, mem: Memory)
    requires RegionInWindows(w, buf, len) && len <= ISIZE_MAX
    requires forall i :: 0 <= i < len ==> mem(WrappingAdd(buf, i)) < 0x80
    ensures SysWriteChecked(FD_STDOUT, buf, len, w, mem) == Returned(len, ReadBytes(mem, buf, len))
  {
    AcceptedIsRegion(w, buf, len);
    var bytes := ReadBytes(mem, buf, len);
    assert forall i :: 0 <= i < |bytes| ==> bytes[i] < 0x80 by {
      forall i | 0 <= i < |bytes| ensures bytes[i] < 0x80 {
        assert bytes[i] == mem(WrappingAdd(buf, i));
      }
    }
    Utf8.AsciiIsValid(bytes);
  }
}

=== FILE: kernel_trap.dfy ===
/** The kernel-interrupt flag: one process-wide boolean recording whether a timer
    interrupt has ever arrived while the kernel itself was executing. It starts
    false; the only write sets it to true.
 */
module KernelTrap {

  datatype KernelInterruptFlag = KernelInterruptFlag(triggered: bool)

  /** The two operations on the flag. */
  datatype FlagOp = Check | Mark

  /** `KERNEL_INTERRUPT_TRIGGERED` before any trap. */
  const INITIAL_FLAG: KernelInterruptFlag := KernelInterruptFlag(false)

  /** `check_kernel_interrupt`: a read of the flag. */
  function CheckKernelInterrupt(f: KernelInterruptFlag): (triggered: bool) {
    f.triggered
  }

  /** `mark_kernel_interrupt_triggered`: afterwards the check answers true, and
      marking a flag already marked changes nothing, so marking is idempotent. */
  function MarkKernelInterruptTriggered(f: KernelInterruptFlag): (r: KernelInterruptFlag)
    ensures CheckKernelInterrupt(r)
    ensures CheckKernelInterrupt(f) ==> r == f
  {
    KernelInterruptFlag(true)
  }

  /** The flag after one operation; a check leaves it as it was. */
  function Apply(f: KernelInterruptFlag, op: FlagOp): (r: KernelInterruptFlag)
    ensures op == Check ==> r == f
    ensures f.triggered ==> r.triggered
  {
    match op
    case Check => f
    case Mark => MarkKernelInterruptTriggered(f)
  }

  /** What a check would read after each prefix of `ops`: entry `i` is the flag once
      `ops[0..i+1]` have run. */
  function Readings(f: KernelInterruptFlag, ops: seq<FlagOp>): (r: seq<bool>)
    ensures |r| == |ops|
    decreases |ops|
  {
    if |ops| == 0 then []
    else
      var g := Apply(f, ops[0]);
      [CheckKernelInterrupt(g)] + Readings(g, ops[1..])
  }

  /** The flag reads true exactly when it started true or some mark has run: no
      sequence of operations ever sets it back to false. */
  lemma {:induction false} ReadingsSeeEveryMark(f: KernelInterruptFlag, ops: seq<FlagOp>)
    ensures forall i :: 0 <= i < |ops| ==> Readings(f, ops)[i] == (f.triggered || Mark in ops[..i + 1])
    decreases |ops|
  {
    if |ops| > 0 {
      var g := Apply(f, ops[0]);
      ReadingsSeeEveryMark(g, ops[1..]);
      forall i | 0 < i < |ops|
        ensures Readings(f, ops)[i] == (f.triggered || Mark in ops[..i + 1])
      {
        assert Readings(f, ops)[i] == Readings(g, ops[1..])[i - 1];
        assert ops[..i + 1] == [ops[0]] + ops[1..][..i];
      }
    }
  }

  /** Monotonicity: once a read sees the flag set, every later read does too. */
  lemma ReadingsMonotone(f: KernelInterruptFlag, ops: seq<FlagOp>)
    ensures forall i, j :: 0 <= i <= j < |ops| && Readings(f, ops)[i] ==> Readings(f, ops)[j]
  {
    ReadingsSeeEveryMark(f, ops);
    forall i, j | 0 <= i <= j < |ops| && Readings(f, ops)[i]
      ensures Readings(f, ops)[j]
    {
      if !f.triggered {
        assert ops[..i + 1] == ops[..j + 1][..i + 1];
      }
    }
  }
}

=== FILE: machine.dfy ===
/** The kernel as one state machine: the task manager, the kernel-interrupt flag and
    the set of tasks that have ever run, driven by the effects the trap dispatcher
    plans.

    Effects run one after another on the global state, each reading the clock once.
    A switch hands the processor to another flow, and which flow depends on the task
    switched to. A task that has run before was switched away from inside
    `run_next_task`; it resumes there, measures the switch cost, and finishes its own
    trap handler, whose remaining effect is the same closing kernel-time update as
    the current handler's. A task that has never run starts from the context seeded
    at boot, which returns straight to user mode: the rest of the handler never runs.
 */
module Machine {
  import opened MachineWord
  import opened Task
  import opened TimeAccounting
  import opened KernelTrap
  import opened Trap
  import Scheduler

  /** The global kernel state. `started` holds the ids of the tasks that have run at
      least once, so that switching to them resumes a saved kernel flow. */
  datatype Kernel = Kernel(tm: TaskManager, flag: KernelInterruptFlag, started: set<nat>)

  /** One read of the millisecond and microsecond clocks. */
  datatype Reading = Reading(ms: Usize, us: Usize)

  /** After an effect: running on in this flow, running a task entered for the first
      time (this flow never continues), or powered down because no task was left. */
  datatype Run = Live(k: Kernel) | Fresh(k: Kernel) | Off(k: Kernel)

  /** How a trap ends: back to the (updated) context, into a task started for the
      first time, shutdown, or a kernel panic. */
  datatype TrapStep =
    | Resumed(k: Kernel, cx: TrapContext)
    | Started(k: Kernel)
    | PoweredOff(k: Kernel)
    | Halted(k: Kernel)

  /** The state `run_first_task` leaves: the boot table with task 0 running, both
      clocks stamped, the flag clear, and task 0 the only task that has run. */
  function Boot(numApp: Usize, maxApp: nat, nowMs: Usize, nowUs: Usize): (k: Kernel)
    requires 0 < numApp <= maxApp
    ensures Scheduling(k.tm) && k.tm.currentTask == 0 && k.started == {0}
    ensures Conserved(k.tm, nowMs) && !CheckKernelInterrupt(k.flag)
  {
    Scheduler.BootStartsScheduling(numApp, maxApp, nowMs, nowUs);
    BootStartsEpoch(numApp, maxApp, nowMs, nowUs);
    Kernel(RunFirstTask(Init(numApp, maxApp), nowMs, nowUs), INITIAL_FLAG, {0})
  }

  /** The clock never reads earlier than `stamp` and never goes backwards. */
  predicate ClockFrom(clock: seq<Reading>, stamp: int) {
    && (forall i :: 0 <= i < |clock| ==> stamp <= clock[i].ms)
    && (forall i, j :: 0 <= i <= j < |clock| ==> clock[i].ms <= clock[j].ms)
  }

  /** Where a switch lands. To a task that has run before: its flow resumes after
      `__switch` and `do_cal_task_switch_cost` reads the clock (`next`). To a task
      never run: it enters user mode from its seeded context and is now started. */
  function AfterSwitch(k: Kernel, o: SwitchOutcome, next: Reading): (r: Run)
    requires WellFormed(o.tm)
    ensures r.k.tm.tasks == o.tm.tasks && r.k.tm.currentTask == o.tm.currentTask
    ensures r.k.flag == k.flag && r.k.started >= k.started
    ensures r.Off? <==> o.Shutdown?
    ensures r.Fresh? <==> o.Switched? && o.to !in k.started
    ensures r.Live? ==> r.k.tm == CalTaskSwitchCost(o.tm, next.us).1
    ensures r.Fresh? ==> r.k.tm == o.tm && r.k.started == k.started + {o.to}
  {
    match o
    case Shutdown(tm) => Off(k.(tm := tm))
    case Switched(tm, _, to) =>
      if to in k.started then Live(k.(tm := CalTaskSwitchCost(tm, next.us).1))
      else Fresh(k.(tm := tm, started := k.started + {to}))
  }

  /** One effect of a handler, reading the clock at `now`; `next` is the reading the
      following step takes, which a resumed switch uses for its cost. The system call,
      whose body is not part of this model, and the timer rearm touch neither the
      task table nor the flag. */
  function ApplyEffect(k: Kernel, e: Effect, now: Reading, next: Reading): (r: Run)
    requires WellFormed(k.tm)
    ensures WellFormed(r.k.tm) && |r.k.tm.tasks| == |k.tm.tasks| && r.k.tm.numApp == k.tm.numApp
    ensures !(e == ExitAndRunNext || e == SuspendAndRunNext) ==> r.Live? && r.k.started == k.started
  {
    match e
    case UpdateUserTime => Live(k.(tm := UpdateCurrentTaskUserTime(k.tm, now.ms)))
    case UpdateKernelTime => Live(k.(tm := UpdateCurrentTaskKernelTime(k.tm, now.ms)))
    case InvokeSyscall(_, _) => Live(k)
    case ExitAndRunNext => AfterSwitch(k, ExitCurrentAndRunNext(k.tm, now.us), next)
    case SuspendAndRunNext => AfterSwitch(k, SuspendCurrentAndRunNext(k.tm, now.us), next)
    case SetNextTrigger => Live(k)
    case MarkKernelInterrupt => Live(k.(flag := MarkKernelInterruptTriggered(k.flag)))
  }

  /** Run `effects` in order, the i-th reading `clock[i]`, stopping at a shutdown or
      at the entry of a task that has never run. One reading more than there are
      effects is available to the flow a last switch resumes. */
  function Execute(k: Kernel, effects: seq<Effect>, clock: seq<Reading>): (r: Run)
    requires WellFormed(k.tm) && |clock| > |effects|
    ensures WellFormed(r.k.tm) && |r.k.tm.tasks| == |k.tm.tasks| && r.k.tm.numApp == k.tm.numApp
    ensures r.k.started >= k.started
    ensures (forall i :: 0 <= i < |effects| ==> effects[i] != ExitAndRunNext && effects[i] != SuspendAndRunNext)
            ==> r.Live? && r.k.started == k.started
    decreases |effects|
  {
    if |effects| == 0 then Live(k)
    else
      match ApplyEffect(k, effects[0], clock[0], clock[1])
      case Off(k') => Off(k')
      case Fresh(k') => Fresh(k')
      case Live(k') => Execute(k', effects[1..], clock[1..])
  }

  /** A whole trap: dispatch on the live `sstatus` and `scause`, then run the effects.
      It panics exactly when the handler does; when it returns to the interrupted
      flow, it does so with the context the handler planned; a trap taken in the
      kernel never switches tasks. */
  function HandleTrap(k: Kernel, cx: TrapContext, sstatus: Usize, scause: Usize, syscall: Syscall,
                      clock: seq<Reading>): (r: TrapStep)
    requires WellFormed(k.tm) && |clock| >= 5
    ensures r.Halted? <==> TrapHandler(cx, sstatus, scause, syscall).Panic?
    ensures r.Resumed? ==> r.cx == TrapHandler(cx, sstatus, scause, syscall).cx
    ensures PrivilegeOf(sstatus) == Supervisor ==> (r.Resumed? || r.Halted?) && r.k.started == k.started
    ensures WellFormed(r.k.tm) && |r.k.tm.tasks| == |k.tm.tasks| && r.k.tm.numApp == k.tm.numApp
  {
    match TrapHandler(cx, sstatus, scause, syscall)
    case Return(cx', effects) =>
      (match Execute(k, effects, clock)
       case Live(k') => Resumed(k', cx')
       case Fresh(k') => Started(k')
       case Off(k') => PoweredOff(k'))
    case Panic(effects) => Halted(Execute(k, effects, clock).k)
  }

  // ---------------------------------------------------------------- invariants

  lemma ApplyEffectKeepsScheduling(k: Kernel, e: Effect, now: Reading, next: Reading)
    requires Scheduling(k.tm)
    ensures var r := ApplyEffect(k, e, now, next);
            && (!r.Off? ==> Scheduling(r.k.tm))
            && (r.Off? ==> e == ExitAndRunNext && NoReady(r.k.tm))
            && ExitedKept(k.tm, r.k.tm)
  {
    match e
    case ExitAndRunNext =>
      Scheduler.ExitKeepsScheduling(k.tm, now.us);
    case SuspendAndRunNext =>
      Scheduler.SuspendKeepsScheduling(k.tm, now.us);
    case _ =>
  }

  /** Every run of effects keeps exactly one task Running as the current task, never
      revives an Exited task, and powers off only when no loaded app is Ready. */
  lemma {:induction false} ExecuteKeepsScheduling(k: Kernel, effects: seq<Effect>, clock: seq<Reading>)
    requires Scheduling(k.tm) && |clock| > |effects|
    ensures var r := Execute(k, effects, clock);
            && (!r.Off? ==> Scheduling(r.k.tm))
            && (r.Off? ==> NoReady(r.k.tm))
            && ExitedKept(k.tm, r.k.tm)
    decreases |effects|
  {
    if |effects| > 0 {
      ApplyEffectKeepsScheduling(k, effects[0], clock[0], clock[1]);
      var step := ApplyEffect(k, effects[0], clock[0], clock[1]);
      if step.Live? {
        ExecuteKeepsScheduling(step.k, effects[1..], clock[1..]);
      }
    }
  }

  /** Status changes leave every bucket and the stamp alone. */
  lemma SwitchKeepsBuckets(tm: TaskManager, marked: TaskManager, s: TaskStatus, nowUs: Usize)
    requires WellFormed(tm) && StatusSetAt(tm, marked, tm.currentTask, s) && marked.currentTask == tm.currentTask
    requires WellFormed(marked)
    ensures var o := RunNextTask(marked, nowUs);
            TotalTime(o.tm.tasks) == TotalTime(tm.tasks) && o.tm.systemTimeStamp == tm.systemTimeStamp
  {
    TotalTimeOfSameBuckets(tm.tasks, marked.tasks);
    TotalTimeOfSameBuckets(marked.tasks, RunNextTask(marked, nowUs).tm.tasks);
  }

  lemma ApplyEffectConservesTime(k: Kernel, e: Effect, now: Reading, next: Reading, epoch: nat)
    requires WellFormed(k.tm) && Conserved(k.tm, epoch) && k.tm.systemTimeStamp <= now.ms
    ensures var r := ApplyEffect(k, e, now, next);
            && Conserved(r.k.tm, epoch)
            && (r.k.tm.systemTimeStamp == k.tm.systemTimeStamp || r.k.tm.systemTimeStamp == now.ms)
  {
    match e
    case UpdateUserTime =>
      UpdateConservesTime(k.tm, now.ms, UserBucket, epoch);
    case UpdateKernelTime =>
      UpdateConservesTime(k.tm, now.ms, KernelBucket, epoch);
    case ExitAndRunNext =>
      SwitchKeepsBuckets(k.tm, MarkCurrentExited(k.tm), Exited, now.us);
    case SuspendAndRunNext =>
      SwitchKeepsBuckets(k.tm, MarkCurrentSuspended(k.tm), Ready, now.us);
    case _ =>
  }

  /** Time conservation: on a clock that never goes backwards, every run of effects
      keeps the buckets of all tasks summing to the time elapsed since the epoch. */
  lemma {:induction false} ExecuteConservesTime(k: Kernel, effects: seq<Effect>, clock: seq<Reading>, epoch: nat)
    requires WellFormed(k.tm) && |clock| > |effects|
    requires Conserved(k.tm, epoch) && ClockFrom(clock, k.tm.systemTimeStamp)
    ensures Conserved(Execute(k, effects, clock).k.tm, epoch)
    decreases |effects|
  {
    if |effects| > 0 {
      ApplyEffectConservesTime(k, effects[0], clock[0], clock[1], epoch);
      var step := ApplyEffect(k, effects[0], clock[0], clock[1]);
      if step.Live? {
        assert ClockFrom(clock[1..], step.k.tm.systemTimeStamp) by {
          forall i | 0 <= i < |clock[1..]|
            ensures step.k.tm.systemTimeStamp <= clock[1..][i].ms
          {
            assert clock[1..][i] == clock[i + 1];
          }
        }
        ExecuteConservesTime(step.k, effects[1..], clock[1..], epoch);
      }
    }
  }

  lemma ApplyEffectConservesTimeModulo(k: Kernel, e: Effect, now: Reading, next: Reading, epoch: int)
    requires WellFormed(k.tm) && ConservedModulo(k.tm, epoch)
    ensures ConservedModulo(ApplyEffect(k, e, now, next).k.tm, epoch)
  {
    match e
    case UpdateUserTime =>
      UpdateConservesTimeModulo(k.tm, now.ms, UserBucket, epoch);
    case UpdateKernelTime =>
      UpdateConservesTimeModulo(k.tm, now.ms, KernelBucket, epoch);
    case ExitAndRunNext =>
      SwitchKeepsBuckets(k.tm, MarkCurrentExited(k.tm), Exited, now.us);
    case SuspendAndRunNext =>
      SwitchKeepsBuckets(k.tm, MarkCurrentSuspended(k.tm), Ready, now.us);
    case _ =>
  }

  /** Whatever the clock reads, the partition holds modulo 2^64. */
  lemma {:induction false} ExecuteConservesTimeModulo(k: Kernel, effects: seq<Effect>, clock: seq<Reading>, epoch: int)
    requires WellFormed(k.tm) && |clock| > |effects| && ConservedModulo(k.tm, epoch)
    ensures ConservedModulo(Execute(k, effects, clock).k.tm, epoch)
    decreases |effects|
  {
    if |effects| > 0 {
      ApplyEffectConservesTimeModulo(k, effects[0], clock[0], clock[1], epoch);
      var step := ApplyEffect(k, effects[0], clock[0], clock[1]);
      if step.Live? {
        ExecuteConservesTimeModulo(step.k, effects[1..], clock[1..], epoch);
      }
    }
  }

  /** A switch back to a task that has run before is measured: on a microsecond clock
      that has not gone back between the switch and the resumed flow's read, the
      total switch time grows by exactly the time between the two. A switch into a
      task never run measures nothing. */
  lemma SwitchCostMeasured(k: Kernel, e: Effect, now: Reading, next: Reading)
    requires WellFormed(k.tm) && (e == ExitAndRunNext || e == SuspendAndRunNext)
    requires now.us <= next.us && k.tm.taskSwitchTotalTime + (next.us - now.us) < USIZE_MODULUS
    ensures var r := ApplyEffect(k, e, now, next);
            && (r.Live? ==> r.k.tm.taskSwitchTotalTime == k.tm.taskSwitchTotalTime + (next.us - now.us))
            && (!r.Live? ==> r.k.tm.taskSwitchTotalTime == k.tm.taskSwitchTotalTime)
  {
  }

  /** Nothing a handler does clears the kernel-interrupt flag. */
  lemma {:induction false} ExecuteKeepsFlag(k: Kernel, effects: seq<Effect>, clock: seq<Reading>)
    requires WellFormed(k.tm) && |clock| > |effects| && CheckKernelInterrupt(k.flag)
    ensures CheckKernelInterrupt(Execute(k, effects, clock).k.flag)
    decreases |effects|
  {
    if |effects| > 0 {
      var step := ApplyEffect(k, effects[0], clock[0], clock[1]);
      if step.Live? {
        ExecuteKeepsFlag(step.k, effects[1..], clock[1..]);
      }
    }
  }

  // ---------------------------------------------------------------- whole traps

  /** A timer interrupt taken while the kernel runs sets the flag and resumes the
      same context; the task table, the current task and all accounting are left
      exactly as they were. */
  lemma KernelTimerOnlyMarks(k: Kernel, cx: TrapContext, sstatus: Usize, scause: Usize, syscall: Syscall,
                             clock: seq<Reading>)
    requires WellFormed(k.tm) && |clock| >= 5
    requires PrivilegeOf(sstatus) == Supervisor && IsTimer(DecodeScause(scause))
    ensures HandleTrap(k, cx, sstatus, scause, syscall, clock) == Resumed(k.(flag := KernelInterruptFlag(true)), cx)
  {
  }

  /** Every trap, from either mode and however it ends, keeps the single-Running
      invariant, never revives an Exited task, powers off only when no loaded app is
      Ready, never clears the kernel-interrupt flag and, on a clock that never goes
      backwards, keeps the buckets a partition of the time since the epoch. */
  lemma TrapKeepsInvariants(k: Kernel, cx: TrapContext, sstatus: Usize, scause: Usize, syscall: Syscall,
                            clock: seq<Reading>, epoch: nat)
    requires Scheduling(k.tm) && Conserved(k.tm, epoch)
    requires |clock| >= 5 && ClockFrom(clock, k.tm.systemTimeStamp)
    ensures var s := HandleTrap(k, cx, sstatus, scause, syscall, clock);
            && ((s.Resumed? || s.Started?) ==> Scheduling(s.k.tm))
            && (s.PoweredOff? ==> NoReady(s.k.tm))
            && Conserved(s.k.tm, epoch)
            && ExitedKept(k.tm, s.k.tm)
            && (CheckKernelInterrupt(k.flag) ==> CheckKernelInterrupt(s.k.flag))
  {
    var effects := TrapHandler(cx, sstatus, scause, syscall).effects;
    ExecuteKeepsScheduling(k, effects, clock);
    ExecuteConservesTime(k, effects, clock, epoch);
    if CheckKernelInterrupt(k.flag) {
      ExecuteKeepsFlag(k, effects, clock);
    }
  }
}

=== FILE: machine_word.dfy ===
/** Machine words of a 64-bit RISC-V kernel.

    Rust's `usize` and `isize` are 64 bits wide on this target. The kernel is built
    without overflow checks, so `+` and `-` on `usize` wrap around; the functions
    below write that wrap-around out explicitly. `as` casts between `usize` and
    `isize` reinterpret the two's-complement bit pattern.

    The file also holds two small modules the rest of the model shares: `Optional`,
    the option type of `Option<usize>` results, and `Arith`, facts about Euclidean
    division that the scheduler's cyclic scan needs.
 */
module MachineWord {

  const USIZE_MODULUS: int := 0x1_0000_0000_0000_0000
  const ISIZE_MIN: int := -0x8000_0000_0000_0000
  const ISIZE_MAX: int := 0x7FFF_FFFF_FFFF_FFFF

  type Usize = x: int | 0 <= x < USIZE_MODULUS
  type Isize = x: int | ISIZE_MIN <= x <= ISIZE_MAX
  type Byte = x: int | 0 <= x < 0x100

  /** `a + b` on `usize` without overflow checks. */
  function WrappingAdd(a: Usize, b: Usize): (r: Usize)
    ensures a + b < USIZE_MODULUS ==> r == a + b
    ensures a + b >= USIZE_MODULUS ==> r == a + b - USIZE_MODULUS
  {
    if a + b < USIZE_MODULUS then a + b else a + b - USIZE_MODULUS
  }

  /** `a - b` on `usize` without overflow checks. */
  function WrappingSub(a: Usize, b: Usize): (r: Usize)
    ensures b <= a ==> r == a - b
    ensures a < b ==> r == a - b + USIZE_MODULUS
  {
    if b <= a then a - b else a - b + USIZE_MODULUS
  }

  /** `x as isize` for `x: usize`: values above `isize::MAX` become negative. */
  function UsizeAsIsize(x: Usize): (r: Isize)
    ensures x <= ISIZE_MAX ==> r == x
    ensures r < 0 <==> x > ISIZE_MAX
  {
    if x <= ISIZE_MAX then x else x - USIZE_MODULUS
  }

  /** `x as usize` for `x: isize`; the inverse of `UsizeAsIsize`. */
  function IsizeAsUsize(x: Isize): (r: Usize)
    ensures UsizeAsIsize(r) == x
    ensures 0 <= x ==> r == x
  {
    if 0 <= x then x else x + USIZE_MODULUS
  }

  /** Reading a `usize` as `isize` and casting back gives the word unchanged: the
      `len as isize` a write returns reaches `a0` as `len` itself. */
  lemma CastsRoundTrip(x: Usize)
    ensures IsizeAsUsize(UsizeAsIsize(x)) == x
  {
  }
}

/** The conventional optional value, used for `Option<usize>` results. */
module Optional {

  datatype Option<+T> = None | Some(value: T)
}

/** Facts about Euclidean division that the cyclic scan of the scheduler needs. */
module Arith {

  lemma MulAtLeast(n: int, a: int)
    requires 0 < n && 1 <= a
    ensures n * a >= n
    decreases a
  {
    if a > 1 {
      MulAtLeast(n, a - 1);
      assert n * a == n * (a - 1) + n;
    }
  }

  /** A remainder in range determines the quotient and the remainder. */
  lemma ModUnique(x: int, n: int, q: int, r: int)
    requires 0 < n && 0 <= r < n && x == n * q + r
    ensures x % n == r && x / n == q
  {
    var q', r' := x / n, x % n;
    assert x == n * q' + r';
    assert n * (q - q') == r' - r by {
      assert n * q - n * q' == n * (q - q');
    }
    if q > q' {
      MulAtLeast(n, q - q');
    } else if q < q' {
      MulAtLeast(n, q' - q);
    }
  }
}

=== FILE: scheduling.dfy ===
/** Properties of the round-robin scheduler that span several task-manager calls:
    the single-Running invariant, Exited being absorbing, and the order in which a
    run of yields visits the tasks.
 */
module Scheduler {
  import opened MachineWord
  import opened Optional
  import opened Arith
  import opened Task

  /** Booting and running the first task starts scheduling with task 0. */
  lemma BootStartsScheduling(numApp: Usize, maxApp: nat, nowMs: Usize, nowUs: Usize)
    requires 0 < numApp <= maxApp
    ensures var tm := RunFirstTask(Init(numApp, maxApp), nowMs, nowUs);
            Scheduling(tm) && tm.currentTask == 0
            && forall i :: 0 < i < maxApp ==> tm.tasks[i].status == Ready
  {
  }

  /** A yield keeps exactly one task Running, and it is the new current task; it never
      shuts the machine down, because the yielding task is itself Ready again; an
      Exited task neither comes back nor is chosen. */
  lemma SuspendKeepsScheduling(tm: TaskManager, nowUs: Usize)
    requires Scheduling(tm)
    ensures var r := SuspendCurrentAndRunNext(tm, nowUs);
            && r.Switched?
            && r.from == tm.currentTask
            && Scheduling(r.tm)
            && ExitedKept(tm, r.tm)
            && tm.tasks[r.to].status != Exited
  {
    var marked := MarkCurrentSuspended(tm);
    assert IsReady(marked, tm.currentTask);
    var r := RunNextTask(marked, nowUs);
    assert r.Switched?;
    assert Scheduling(r.tm) by {
      forall i | 0 <= i < |r.tm.tasks| && i != r.to
        ensures r.tm.tasks[i].status != Running
      {
        assert r.tm.tasks[i] == marked.tasks[i];
      }
    }
  }

  /** An exit keeps the invariant whenever another task is found; the machine shuts
      down exactly when no other loaded app is Ready. The exited task stays Exited. */
  lemma ExitKeepsScheduling(tm: TaskManager, nowUs: Usize)
    requires Scheduling(tm)
    ensures var r := ExitCurrentAndRunNext(tm, nowUs);
            && (r.Switched? ==> Scheduling(r.tm) && r.from == tm.currentTask)
            && (r.Shutdown? <==> forall i :: 0 <= i < tm.numApp && i != tm.currentTask ==> tm.tasks[i].status != Ready)
            && ExitedKept(tm, r.tm)
            && (r.Switched? ==> tm.tasks[r.to].status == Ready)
  {
    var marked := MarkCurrentExited(tm);
    var r := RunNextTask(marked, nowUs);
    if r.Switched? {
      assert Scheduling(r.tm) by {
        forall i | 0 <= i < |r.tm.tasks| && i != r.to
          ensures r.tm.tasks[i].status != Running
        {
          assert r.tm.tasks[i] == marked.tasks[i];
        }
      }
    }
    if r.Shutdown? {
      forall i | 0 <= i < tm.numApp && i != tm.currentTask
        ensures tm.tasks[i].status != Ready
      {
        assert !IsReady(marked, i);
      }
    } else {
      assert tm.tasks[r.to].status == Ready;
    }
  }

  /** The scan visits the current task last: if `find_next_task` comes back with the
      current task, no other loaded app is Ready. */
  lemma CurrentConsideredLast(tm: TaskManager)
    requires WellFormed(tm) && tm.currentTask < tm.numApp
    requires FindNextTask(tm) == Some(tm.currentTask as nat)
    ensures forall i :: 0 <= i < tm.numApp && i != tm.currentTask ==> !IsReady(tm, i)
  {
    var n := tm.numApp;
    var cur := tm.currentTask as nat;
    FindNextTaskIsNearestReady(tm);
    assert Distance(cur, cur, n) == n by {
      ModUnique(0, n, 0, 0);
    }
    forall i | 0 <= i < n && i != cur
      ensures !IsReady(tm, i)
    {
      var d := Distance(cur, i, n);
      if d == n {
        ModUnique(cur + n, n, 1, cur);
        assert false;
      }
    }
  }

  // ---------------------------------------------------------------- fairness

  /** Every loaded app is still alive: Ready or Running. */
  predicate AllLive(tm: TaskManager)
    requires WellFormed(tm)
  {
    forall i :: 0 <= i < tm.numApp ==> tm.tasks[i].status == Ready || tm.tasks[i].status == Running
  }

  /** With no task exited, a yield hands the processor to the very next id. */
  lemma RoundRobinStep(tm: TaskManager, nowUs: Usize)
    requires Scheduling(tm) && AllLive(tm)
    ensures var r := SuspendCurrentAndRunNext(tm, nowUs);
            && r.Switched?
            && r.to == CyclicId(tm.currentTask, 1, tm.numApp)
            && Scheduling(r.tm) && AllLive(r.tm)
  {
    SuspendKeepsScheduling(tm, nowUs);
    var marked := MarkCurrentSuspended(tm);
    var n := tm.numApp;
    var first := CyclicId(tm.currentTask, 1, n);
    assert IsReady(marked, first);
    assert FindOffsetFrom(marked, 1) == Some(1);
    var r := SuspendCurrentAndRunNext(tm, nowUs);
    assert AllLive(r.tm) by {
      forall i | 0 <= i < n
        ensures r.tm.tasks[i].status == Ready || r.tm.tasks[i].status == Running
      {
        if i != r.to {
          assert r.tm.tasks[i] == marked.tasks[i];
        }
      }
    }
  }

  /** Yield `|stamps|` times in a row; the state reached and the ids switched to. */
  function YieldRounds(tm: TaskManager, stamps: seq<Usize>): (r: (TaskManager, seq<nat>))
    requires Scheduling(tm)
    ensures Scheduling(r.0) && |r.1| == |stamps|
    ensures r.0.numApp == tm.numApp
    decreases |stamps|
  {
    if |stamps| == 0 then (tm, [])
    else
      SuspendKeepsScheduling(tm, stamps[0]);
      var step := SuspendCurrentAndRunNext(tm, stamps[0]);
      var rest := YieldRounds(step.tm, stamps[1..]);
      (rest.0, [step.to] + rest.1)
  }

  /** `((a % n) + b) % n == (a + b) % n`. */
  lemma ModAddAbsorb(a: nat, b: nat, n: nat)
    requires 0 < n
    ensures ((a % n) + b) % n == (a + b) % n
  {
    var q := a / n;
    assert a == n * q + a % n;
    var s := (a % n + b) % n;
    var t := (a % n + b) / n;
    assert a % n + b == n * t + s;
    assert a + b == n * (q + t) + s by {
      assert n * q + n * t == n * (q + t);
    }
    ModUnique(a + b, n, q + t, s);
  }

  /** `schedule` lists the ids 1, 2, 3, ... steps after `current`, in cyclic order. */
  predicate CyclicFrom(schedule: seq<nat>, current: nat, n: nat)
    requires 0 < n
  {
    forall j :: 0 <= j < |schedule| ==> schedule[j] == CyclicId(current, j + 1, n)
  }

  lemma CyclicFromShift(rest: seq<nat>, current: nat, n: nat)
    requires 0 < n && CyclicFrom(rest, CyclicId(current, 1, n), n)
    ensures CyclicFrom([CyclicId(current, 1, n)] + rest, current, n)
  {
    var schedule := [CyclicId(current, 1, n)] + rest;
    forall j | 0 < j < |schedule|
      ensures schedule[j] == CyclicId(current, j + 1, n)
    {
      assert schedule[j] == rest[j - 1];
      ModAddAbsorb(current + 1, j, n);
    }
  }

  /** A cyclic schedule of length n visits each of the n ids exactly once. */
  lemma CyclicSweepIsPermutation(schedule: seq<nat>, current: nat, n: nat)
    requires 0 < n && |schedule| == n && CyclicFrom(schedule, current, n)
    ensures forall i :: 0 <= i < n ==> i in schedule
    ensures forall j, k :: 0 <= j < k < |schedule| ==> schedule[j] != schedule[k]
  {
    forall i | 0 <= i < n
      ensures i in schedule
    {
      var d := Distance(current, i, n);
      assert schedule[d - 1] == i;
    }
    forall j, k | 0 <= j < k < |schedule|
      ensures schedule[j] != schedule[k]
    {
      OffsetUnique(current, j + 1, n);
      OffsetUnique(current, k + 1, n);
    }
  }

  /** Round-robin order: with every app alive, the j-th yield (counting from 1) runs
      the task j steps after the one that was current at the start. */
  lemma {:induction false} RoundRobinSweep(tm: TaskManager, stamps: seq<Usize>)
    requires Scheduling(tm) && AllLive(tm)
    ensures CyclicFrom(YieldRounds(tm, stamps).1, tm.currentTask, tm.numApp)
    ensures AllLive(YieldRounds(tm, stamps).0)
    decreases |stamps|
  {
    if |stamps| > 0 {
      RoundRobinStep(tm, stamps[0]);
      var step := SuspendCurrentAndRunNext(tm, stamps[0]);
      RoundRobinSweep(step.tm, stamps[1..]);
      var rest := YieldRounds(step.tm, stamps[1..]).1;
      CyclicFromShift(rest, tm.currentTask, tm.numApp);
      assert YieldRounds(tm, stamps).1 == [step.to] + rest;
    }
  }

  /** Fairness: with every app alive, `numApp` consecutive yields run every loaded
      app exactly once. */
  lemma SweepRunsEachTaskOnce(tm: TaskManager, stamps: seq<Usize>)
    requires Scheduling(tm) && AllLive(tm) && |stamps| == tm.numApp
    ensures var schedule := YieldRounds(tm, stamps).1;
            && (forall i :: 0 <= i < tm.numApp ==> i in schedule)
            && (forall j, k :: 0 <= j < k < |schedule| ==> schedule[j] != schedule[k])
  {
    RoundRobinSweep(tm, stamps);
    CyclicSweepIsPermutation(YieldRounds(tm, stamps).1, tm.currentTask, tm.numApp);
  }
}

=== FILE: task.dfy ===
/** The task manager of the kernel: a fixed table of task control blocks, the id of
    the running task, and three timestamps, with the lifecycle and round-robin
    scheduling operations on them.

    The global `TASK_MANAGER` singleton behind its exclusive-access cell becomes an
    explicit `TaskManager` value; every operation is a pure transition on it. Clock
    reads are parameters (`nowMs`, `nowUs`), and the register-swap primitive
    `__switch` is the abstract event reported by `RunNextTask`.
 */
module Task {
  import opened MachineWord
  import opened Optional
  import opened Arith

  datatype TaskStatus = UnInit | Ready | Running | Exited

  /** One slot of the task table. The saved register snapshot is opaque and left out;
      the two buckets hold the milliseconds charged to the task in each privilege mode. */
  datatype TaskControlBlock = TaskControlBlock(status: TaskStatus, kernelTime: Usize, userTime: Usize)

  datatype TaskManager = TaskManager(
    numApp: Usize,
    tasks: seq<TaskControlBlock>,
    currentTask: Usize,
    systemTimeStamp: Usize,
    taskSwitchTimestamp: Usize,
    taskSwitchTotalTime: Usize)

  /** Which bucket of the current task a time update charges. */
  datatype Bucket = KernelBucket | UserBucket

  /** What `run_next_task` did: switched from one task to another, or found no Ready
      task and powered the machine down. */
  datatype SwitchOutcome =
    | Switched(tm: TaskManager, from: nat, to: nat)
    | Shutdown(tm: TaskManager)

  /** Every reachable manager has this shape: the table holds all loaded apps (the
      loader reports at most MAX_APP_NUM of them) and `currentTask` indexes a slot. */
  predicate WellFormed(tm: TaskManager) {
    tm.numApp <= |tm.tasks| && tm.currentTask < |tm.tasks|
  }

  predicate IsReady(tm: TaskManager, id: nat)
    requires id < |tm.tasks|
  {
    tm.tasks[id].status == Ready
  }

  /** No loaded app is Ready: all work is complete. */
  predicate NoReady(tm: TaskManager)
    requires WellFormed(tm)
  {
    forall i :: 0 <= i < tm.numApp ==> !IsReady(tm, i)
  }

  /** Scheduling has begun and is consistent: exactly one task is Running, it is a
      loaded app, and it is `currentTask`. */
  predicate Scheduling(tm: TaskManager) {
    && WellFormed(tm)
    && tm.currentTask < tm.numApp
    && tm.tasks[tm.currentTask].status == Running
    && forall i :: 0 <= i < |tm.tasks| && i != tm.currentTask ==> tm.tasks[i].status != Running
  }

  /** `b` is `a` with only the status of slot `id` set to `s`: the other slots, the
      buckets of slot `id`, the current id and all timestamps are untouched. */
  predicate StatusSetAt(a: TaskManager, b: TaskManager, id: nat, s: TaskStatus) {
    && id < |a.tasks| == |b.tasks|
    && b.tasks[id] == a.tasks[id].(status := s)
    && (forall i :: 0 <= i < |a.tasks| && i != id ==> b.tasks[i] == a.tasks[i])
    && b.numApp == a.numApp
    && b.systemTimeStamp == a.systemTimeStamp
    && b.taskSwitchTimestamp == a.taskSwitchTimestamp
    && b.taskSwitchTotalTime == a.taskSwitchTotalTime
  }

  /** Every task that was Exited in `a` is still Exited in `b`. */
  predicate ExitedKept(a: TaskManager, b: TaskManager) {
    && |b.tasks| == |a.tasks|
    && forall i :: 0 <= i < |a.tasks| && a.tasks[i].status == Exited ==> b.tasks[i].status == Exited
  }

  // ---------------------------------------------------------------- boot

  /** The `TASK_MANAGER` initialiser: a `maxApp`-slot table whose every slot is
      turned from UnInit into Ready with empty buckets, task 0 current, all
      timestamps zero. */
  function Init(numApp: Usize, maxApp: nat): (tm: TaskManager)
    ensures |tm.tasks| == maxApp && tm.numApp == numApp
    ensures forall i :: 0 <= i < maxApp ==> tm.tasks[i] == TaskControlBlock(Ready, 0, 0)
    ensures tm.currentTask == 0
    ensures tm.systemTimeStamp == 0 && tm.taskSwitchTimestamp == 0 && tm.taskSwitchTotalTime == 0
    ensures 0 < maxApp && numApp <= maxApp ==> WellFormed(tm)
  {
    var blank := TaskControlBlock(UnInit, 0, 0);
    TaskManager(numApp, seq(maxApp, _ => blank.(status := Ready)), 0, 0, 0, 0)
  }

  /** `do_update_system_time_stamp`: restart the millisecond epoch. */
  function UpdateSystemTimeStamp(tm: TaskManager, nowMs: Usize): (r: TaskManager) {
    tm.(systemTimeStamp := nowMs)
  }

  /** `do_update_task_switch_timestamp`: remember when a switch began. */
  function UpdateTaskSwitchTimestamp(tm: TaskManager, nowUs: Usize): (r: TaskManager) {
    tm.(taskSwitchTimestamp := nowUs)
  }

  /** `run_first_task`: mark task 0 Running, start both clocks, and switch into it.
      Started from the boot table with at least one app, it establishes the
      scheduling invariant with task 0 as the Running task. */
  function RunFirstTask(tm: TaskManager, nowMs: Usize, nowUs: Usize): (r: TaskManager)
    requires WellFormed(tm)
    ensures |r.tasks| == |tm.tasks| && forall i :: 0 < i < |tm.tasks| ==> r.tasks[i] == tm.tasks[i]
    ensures r.tasks[0].status == Running
    ensures r.tasks[0].kernelTime == tm.tasks[0].kernelTime && r.tasks[0].userTime == tm.tasks[0].userTime
    ensures r.systemTimeStamp == nowMs && r.taskSwitchTimestamp == nowUs
    ensures r.currentTask == tm.currentTask && r.numApp == tm.numApp
    ensures r == tm.(tasks := r.tasks, systemTimeStamp := nowMs, taskSwitchTimestamp := nowUs)
    ensures tm == Init(tm.numApp, |tm.tasks|) && 0 < tm.numApp ==> Scheduling(r) && r.currentTask == 0
  {
    var marked := tm.(tasks := tm.tasks[0 := tm.tasks[0].(status := Running)]);
    UpdateTaskSwitchTimestamp(UpdateSystemTimeStamp(marked, nowMs), nowUs)
  }

  // ---------------------------------------------------------------- lifecycle

  /** `mark_current_suspended`: the current task becomes Ready again. */
  function MarkCurrentSuspended(tm: TaskManager): (r: TaskManager)
    requires WellFormed(tm)
    ensures StatusSetAt(tm, r, tm.currentTask, Ready) && r.currentTask == tm.currentTask
    ensures WellFormed(r)
  {
    tm.(tasks := tm.tasks[tm.currentTask := tm.tasks[tm.currentTask].(status := Ready)])
  }

  /** `mark_current_exited`: the current task becomes Exited, for good. */
  function MarkCurrentExited(tm: TaskManager): (r: TaskManager)
    requires WellFormed(tm)
    ensures StatusSetAt(tm, r, tm.currentTask, Exited) && r.currentTask == tm.currentTask
    ensures WellFormed(r)
  {
    tm.(tasks := tm.tasks[tm.currentTask := tm.tasks[tm.currentTask].(status := Exited)])
  }

  // ---------------------------------------------------------------- round robin

  /** The id visited at `offset` steps after `current` in the cyclic scan of
      `find_next_task` (`(current + offset) % num_app`). */
  function CyclicId(current: nat, offset: nat, n: nat): (id: nat)
    requires 0 < n
    ensures id < n
  {
    (current + offset) % n
  }

  /** How many steps after `current` the cyclic scan reaches `id`: in 1..n, so the
      current task itself is at distance n and is visited last. */
  function Distance(current: nat, id: nat, n: nat): (d: nat)
    requires id < n
    ensures 1 <= d <= n
    ensures CyclicId(current, d, n) == id
    ensures id == current ==> d == n
  {
    var m := (id - current) % n;
    ModUnique(id - current, n, (id - current) / n, m);
    if m == 0 then
      ModUnique(current + n, n, 1 - (id - current) / n, id);
      n
    else
      ModUnique(current + m, n, - ((id - current) / n), id);
      m
  }

  /** Only one offset in 1..n reaches a given id. */
  lemma OffsetUnique(current: nat, k: nat, n: nat)
    requires 1 <= k <= n
    ensures Distance(current, CyclicId(current, k, n), n) == k
  {
    var id := CyclicId(current, k, n);
    var d := Distance(current, id, n);
    var q1, q2 := (current + k) / n, (current + d) / n;
    assert current + k == n * q1 + id;
    assert current + d == n * q2 + id;
    assert k - d == n * (q1 - q2) by {
      assert n * q1 - n * q2 == n * (q1 - q2);
    }
    if k > d {
      ModUnique(k - d, n, q1 - q2, 0);
      ModUnique(k - d, n, 0, k - d);
    } else if k < d {
      ModUnique(d - k, n, q2 - q1, 0);
      ModUnique(d - k, n, 0, d - k);
    }
  }

  /** Scan offsets `k .. numApp` after the current task and return the first offset
      whose task is Ready. */
  function FindOffsetFrom(tm: TaskManager, k: nat): (r: Option<nat>)
    requires WellFormed(tm) && 1 <= k
    decreases tm.numApp + 1 - k
    ensures r.Some? ==> k <= r.value <= tm.numApp
    ensures r.Some? ==> IsReady(tm, CyclicId(tm.currentTask, r.value, tm.numApp))
    ensures r.Some? ==> forall j :: k <= j < r.value ==> !IsReady(tm, CyclicId(tm.currentTask, j, tm.numApp))
    ensures r.None? ==> forall j :: k <= j <= tm.numApp ==> !IsReady(tm, CyclicId(tm.currentTask, j, tm.numApp))
  {
    if k > tm.numApp then None
    else if IsReady(tm, CyclicId(tm.currentTask, k, tm.numApp)) then Some(k)
    else FindOffsetFrom(tm, k + 1)
  }

  /** `find_next_task`: the first Ready id among `current+1, ..., current+num_app`
      taken modulo `num_app`. The result is a loaded Ready app; there is none exactly
      when no loaded app is Ready. */
  function FindNextTask(tm: TaskManager): (r: Option<nat>)
    requires WellFormed(tm)
    ensures r.Some? ==> r.value < tm.numApp && IsReady(tm, r.value)
    ensures r.None? <==> NoReady(tm)
  {
    FindNextTaskNoneIff(tm);
    match FindOffsetFrom(tm, 1)
    case None => None
    case Some(k) => Some(CyclicId(tm.currentTask, k, tm.numApp))
  }

  lemma FindNextTaskNoneIff(tm: TaskManager)
    requires WellFormed(tm)
    ensures FindOffsetFrom(tm, 1).None? <==> NoReady(tm)
  {
    if FindOffsetFrom(tm, 1).None? {
      forall i | 0 <= i < tm.numApp
        ensures !IsReady(tm, i)
      {
        var d := Distance(tm.currentTask, i, tm.numApp);
        assert CyclicId(tm.currentTask, d, tm.numApp) == i;
      }
    }
  }

  /** The task `find_next_task` picks is the Ready app nearest after the current
      task in cyclic order: no Ready app is reached by the scan before it. */
  lemma FindNextTaskIsNearestReady(tm: TaskManager)
    requires WellFormed(tm)
    ensures var r := FindNextTask(tm);
            r.Some? ==> forall i :: 0 <= i < tm.numApp && IsReady(tm, i) ==>
              Distance(tm.currentTask, r.value, tm.numApp) <= Distance(tm.currentTask, i, tm.numApp)
  {
    var r := FindNextTask(tm);
    if r.Some? {
      var k := FindOffsetFrom(tm, 1).value;
      OffsetUnique(tm.currentTask, k, tm.numApp);
      forall i | 0 <= i < tm.numApp && IsReady(tm, i)
        ensures k <= Distance(tm.currentTask, i, tm.numApp)
      {
        var d := Distance(tm.currentTask, i, tm.numApp);
        assert CyclicId(tm.currentTask, d, tm.numApp) == i;
      }
    }
  }

  /** `run_next_task`: with a next task found, mark it Running, make it current and
      timestamp the switch from the old current task; otherwise shut down, changing
      nothing. */
  function RunNextTask(tm: TaskManager, nowUs: Usize): (r: SwitchOutcome)
    requires WellFormed(tm)
    ensures WellFormed(r.tm) && |r.tm.tasks| == |tm.tasks| && r.tm.numApp == tm.numApp
    ensures r.Shutdown? <==> NoReady(tm)
    ensures r.Shutdown? ==> r.tm == tm
    ensures r.Switched? ==> r.from == tm.currentTask && r.to < tm.numApp && IsReady(tm, r.to)
    ensures r.Switched? ==> FindNextTask(tm) == Some(r.to)
    ensures r.Switched? ==> r.tm.currentTask == r.to && r.tm.taskSwitchTimestamp == nowUs
    ensures r.Switched? ==> r.tm.systemTimeStamp == tm.systemTimeStamp
                            && r.tm.taskSwitchTotalTime == tm.taskSwitchTotalTime
    ensures r.Switched? ==> r.tm.tasks[r.to].status == Running
    ensures r.Switched? ==> forall i :: 0 <= i < |tm.tasks| && i != r.to ==> r.tm.tasks[i] == tm.tasks[i]
    ensures r.Switched? ==> r.tm.tasks[r.to].kernelTime == tm.tasks[r.to].kernelTime
                            && r.tm.tasks[r.to].userTime == tm.tasks[r.to].userTime
  {
    match FindNextTask(tm)
    case Some(next) =>
      var marked := tm.(tasks := tm.tasks[next := tm.tasks[next].(status := Running)], currentTask := next);
      Switched(UpdateTaskSwitchTimestamp(marked, nowUs), tm.currentTask, next)
    case None => Shutdown(tm)
  }

  /** `suspend_current_and_run_next`. */
  function SuspendCurrentAndRunNext(tm: TaskManager, nowUs: Usize): (r: SwitchOutcome)
    requires WellFormed(tm)
    ensures WellFormed(r.tm) && |r.tm.tasks| == |tm.tasks| && r.tm.numApp == tm.numApp
    ensures r.Switched? ==> r.from == tm.currentTask && FindNextTask(MarkCurrentSuspended(tm)) == Some(r.to)
  {
    RunNextTask(MarkCurrentSuspended(tm), nowUs)
  }

  /** `exit_current_and_run_next`: the exited task is never the one chosen. */
  function ExitCurrentAndRunNext(tm: TaskManager, nowUs: Usize): (r: SwitchOutcome)
    requires WellFormed(tm)
    ensures WellFormed(r.tm) && |r.tm.tasks| == |tm.tasks| && r.tm.numApp == tm.numApp
    ensures r.tm.tasks[tm.currentTask].status == Exited
    ensures r.Switched? ==> r.to < tm.numApp && r.to != tm.currentTask && IsReady(tm, r.to)
    ensures r.Switched? ==> FindNextTask(MarkCurrentExited(tm)) == Some(r.to)
  {
    RunNextTask(MarkCurrentExited(tm), nowUs)
  }

  // ---------------------------------------------------------------- accounting

  /** The value of one bucket of a block. */
  function BucketOf(b: TaskControlBlock, bucket: Bucket): (time: Usize) {
    match bucket
    case KernelBucket => b.kernelTime
    case UserBucket => b.userTime
  }

  function OtherBucket(bucket: Bucket): (other: Bucket) {
    match bucket
    case KernelBucket => UserBucket
    case UserBucket => KernelBucket
  }

  /** Add `gap` to one bucket of a block, with `usize` wrap-around. */
  function Charge(b: TaskControlBlock, bucket: Bucket, gap: Usize): (charged: TaskControlBlock) {
    match bucket
    case KernelBucket => b.(kernelTime := WrappingAdd(b.kernelTime, gap))
    case UserBucket => b.(userTime := WrappingAdd(b.userTime, gap))
  }

  /** `do_update_current_task_kernel_time` / `_user_time`: charge the time elapsed
      since the last stamp to one bucket of the current task, then restamp. Modulo
      2^64 the chosen bucket grows by exactly `nowMs - systemTimeStamp`; the other
      bucket, the status, every other slot and every other field stay as they were. */
  function UpdateCurrentTaskTime(tm: TaskManager, nowMs: Usize, bucket: Bucket): (r: TaskManager)
    requires WellFormed(tm)
    ensures WellFormed(r) && r.systemTimeStamp == nowMs
    ensures r == tm.(tasks := r.tasks, systemTimeStamp := nowMs)
    ensures |r.tasks| == |tm.tasks|
    ensures forall i :: 0 <= i < |tm.tasks| && i != tm.currentTask ==> r.tasks[i] == tm.tasks[i]
    ensures r.tasks[tm.currentTask].status == tm.tasks[tm.currentTask].status
    ensures BucketOf(r.tasks[tm.currentTask], OtherBucket(bucket)) == BucketOf(tm.tasks[tm.currentTask], OtherBucket(bucket))
    ensures (BucketOf(r.tasks[tm.currentTask], bucket) - BucketOf(tm.tasks[tm.currentTask], bucket)
             - (nowMs - tm.systemTimeStamp)) % USIZE_MODULUS == 0
  {
    var gap := WrappingSub(nowMs, tm.systemTimeStamp);
    var cur := tm.currentTask;
    tm.(tasks := tm.tasks[cur := Charge(tm.tasks[cur], bucket, gap)], systemTimeStamp := nowMs)
  }

  function UpdateCurrentTaskKernelTime(tm: TaskManager, nowMs: Usize): (r: TaskManager)
    requires WellFormed(tm)
  {
    UpdateCurrentTaskTime(tm, nowMs, KernelBucket)
  }

  function UpdateCurrentTaskUserTime(tm: TaskManager, nowMs: Usize): (r: TaskManager)
    requires WellFormed(tm)
  {
    UpdateCurrentTaskTime(tm, nowMs, UserBucket)
  }

  /** `do_cal_task_switch_cost`, run by the flow a switch resumed: the gap since the
      switch began, also added to the running total. */
  function CalTaskSwitchCost(tm: TaskManager, nowUs: Usize): (r: (Usize, TaskManager))
    ensures r.1 == tm.(taskSwitchTotalTime := r.1.taskSwitchTotalTime)
    ensures tm.taskSwitchTimestamp <= nowUs ==> r.0 == nowUs - tm.taskSwitchTimestamp
    ensures (r.0 - (nowUs - tm.taskSwitchTimestamp)) % USIZE_MODULUS == 0
    ensures (r.1.taskSwitchTotalTime - tm.taskSwitchTotalTime - r.0) % USIZE_MODULUS == 0
  {
    var gap := WrappingSub(nowUs, tm.taskSwitchTimestamp);
    (gap, tm.(taskSwitchTotalTime := WrappingAdd(tm.taskSwitchTotalTime, gap)))
  }
}

=== FILE: time_accounting.dfy ===
/** CPU-time accounting without a per-task timer: every time update charges the
    milliseconds since the last stamp to one bucket of the current task and
    restamps, so the buckets of all tasks together partition the time elapsed since
    the epoch that `run_first_task` started.
 */
module TimeAccounting {
  import opened MachineWord
  import opened Arith
  import opened Task

  function TaskTime(b: TaskControlBlock): (ms: nat) {
    b.kernelTime + b.userTime
  }

  /** The sum of both buckets over the whole table. */
  function TotalTime(ts: seq<TaskControlBlock>): (ms: nat) {
    if |ts| == 0 then 0 else TaskTime(ts[0]) + TotalTime(ts[1..])
  }

  /** The buckets of all tasks add up to the time elapsed from `epoch` to the last stamp. */
  predicate Conserved(tm: TaskManager, epoch: int) {
    TotalTime(tm.tasks) + epoch == tm.systemTimeStamp
  }

  /** The same, modulo 2^64: what survives any clock reading, wrap-around included. */
  predicate ConservedModulo(tm: TaskManager, epoch: int) {
    (TotalTime(tm.tasks) + epoch) % USIZE_MODULUS == tm.systemTimeStamp
  }

  lemma {:induction false} TotalTimeUpdate(ts: seq<TaskControlBlock>, i: nat, b: TaskControlBlock)
    requires i < |ts|
    ensures TotalTime(ts[i := b]) == TotalTime(ts) - TaskTime(ts[i]) + TaskTime(b)
    decreases |ts|
  {
    if i == 0 {
      assert ts[i := b][1..] == ts[1..];
    } else {
      TotalTimeUpdate(ts[1..], i - 1, b);
      assert ts[i := b][1..] == ts[1..][i - 1 := b];
    }
  }

  lemma {:induction false} TaskTimeWithinTotal(ts: seq<TaskControlBlock>, i: nat)
    requires i < |ts|
    ensures TaskTime(ts[i]) <= TotalTime(ts)
    decreases |ts|
  {
    if i > 0 {
      TaskTimeWithinTotal(ts[1..], i - 1);
    }
  }

  /** Only the buckets matter: tables that differ in statuses only have the same total. */
  lemma {:induction false} TotalTimeOfSameBuckets(a: seq<TaskControlBlock>, b: seq<TaskControlBlock>)
    requires |a| == |b|
    requires forall i :: 0 <= i < |a| ==> a[i].kernelTime == b[i].kernelTime && a[i].userTime == b[i].userTime
    ensures TotalTime(a) == TotalTime(b)
    decreases |a|
  {
    if |a| > 0 {
      TotalTimeOfSameBuckets(a[1..], b[1..]);
    }
  }

  lemma {:induction false} TotalTimeOfEmptyBuckets(ts: seq<TaskControlBlock>)
    requires forall i :: 0 <= i < |ts| ==> ts[i].kernelTime == 0 && ts[i].userTime == 0
    ensures TotalTime(ts) == 0
    decreases |ts|
  {
    if |ts| > 0 {
      TotalTimeOfEmptyBuckets(ts[1..]);
    }
  }

  /** `run_first_task` on the boot table starts the accounting epoch at its clock read. */
  lemma BootStartsEpoch(numApp: Usize, maxApp: nat, nowMs: Usize, nowUs: Usize)
    requires 0 < maxApp && numApp <= maxApp
    ensures Conserved(RunFirstTask(Init(numApp, maxApp), nowMs, nowUs), nowMs)
  {
    var tm := RunFirstTask(Init(numApp, maxApp), nowMs, nowUs);
    TotalTimeOfEmptyBuckets(tm.tasks);
  }

  /** With a clock that has not gone backwards, a time update charges exactly the
      elapsed milliseconds to the chosen bucket (no wrap-around can occur) and keeps
      the buckets a partition of the time since the epoch. */
  lemma UpdateConservesTime(tm: TaskManager, nowMs: Usize, bucket: Bucket, epoch: nat)
    requires WellFormed(tm) && Conserved(tm, epoch) && tm.systemTimeStamp <= nowMs
    ensures var r := UpdateCurrentTaskTime(tm, nowMs, bucket);
            && Conserved(r, epoch)
            && BucketOf(r.tasks[tm.currentTask], bucket)
               == BucketOf(tm.tasks[tm.currentTask], bucket) + (nowMs - tm.systemTimeStamp)
  {
    var r := UpdateCurrentTaskTime(tm, nowMs, bucket);
    var cur := tm.currentTask;
    TaskTimeWithinTotal(tm.tasks, cur);
    TotalTimeUpdate(tm.tasks, cur, r.tasks[cur]);
    assert r.tasks == tm.tasks[cur := r.tasks[cur]];
    var gap := nowMs - tm.systemTimeStamp;
    var before := BucketOf(tm.tasks[cur], bucket);
    var after := BucketOf(r.tasks[cur], bucket);
    assert before + gap < USIZE_MODULUS;
    ModUnique(after - before - gap, USIZE_MODULUS, (after - before - gap) / USIZE_MODULUS, 0);
  }

  /** Whatever the clock does, the partition holds modulo 2^64. */
  lemma UpdateConservesTimeModulo(tm: TaskManager, nowMs: Usize, bucket: Bucket, epoch: int)
    requires WellFormed(tm) && ConservedModulo(tm, epoch)
    ensures ConservedModulo(UpdateCurrentTaskTime(tm, nowMs, bucket), epoch)
  {
    var r := UpdateCurrentTaskTime(tm, nowMs, bucket);
    var cur := tm.currentTask;
    TotalTimeUpdate(tm.tasks, cur, r.tasks[cur]);
    assert r.tasks == tm.tasks[cur := r.tasks[cur]];
    var d := TaskTime(r.tasks[cur]) - TaskTime(tm.tasks[cur]);
    var e := d - (nowMs - tm.systemTimeStamp);
    assert e == BucketOf(r.tasks[cur], bucket) - BucketOf(tm.tasks[cur], bucket) - (nowMs - tm.systemTimeStamp) by {
      match bucket
      case KernelBucket =>
      case UserBucket =>
    }
    var k := e / USIZE_MODULUS;
    assert e == USIZE_MODULUS * k;
    var x := TotalTime(tm.tasks) + epoch;
    var q := x / USIZE_MODULUS;
    assert x == USIZE_MODULUS * q + tm.systemTimeStamp;
    assert TotalTime(r.tasks) + epoch == USIZE_MODULUS * (q + k) + nowMs;
    ModUnique(TotalTime(r.tasks) + epoch, USIZE_MODULUS, q + k, nowMs);
  }

  /** A switch measured by `do_update_task_switch_timestamp` followed by
      `do_cal_task_switch_cost` on a clock that did not go backwards reports the
      elapsed microseconds and adds exactly them to the running total. */
  lemma MeasuredSwitchCost(tm: TaskManager, startUs: Usize, endUs: Usize)
    requires startUs <= endUs && tm.taskSwitchTotalTime + (endUs - startUs) < USIZE_MODULUS
    ensures var (gap, r) := CalTaskSwitchCost(UpdateTaskSwitchTimestamp(tm, startUs), endUs);
            && gap == endUs - startUs
            && r.taskSwitchTotalTime == tm.taskSwitchTotalTime + gap
            && r.taskSwitchTotalTime >= tm.taskSwitchTotalTime
  {
    var (gap, r) := CalTaskSwitchCost(UpdateTaskSwitchTimestamp(tm, startUs), endUs);
    ModUnique(r.taskSwitchTotalTime - tm.taskSwitchTotalTime - gap, USIZE_MODULUS,
              (r.taskSwitchTotalTime - tm.taskSwitchTotalTime - gap) / USIZE_MODULUS, 0);
  }
}

=== FILE: trap.dfy ===
/** The trap dispatcher: the single entry for every trap, classified by the privilege
    the hart trapped from (the SPP bit of `sstatus`, section 4.1.1 of the RISC-V
    Privileged Architecture) and by the trap cause (`scause`, section 4.1.8).

    A handler is modelled as a plan: the saved trap context it hands back and the
    ordered list of effects it has on the rest of the kernel (time accounting, task
    transitions, timer, flag). `Machine.Execute` gives those effects their meaning.
    The system-call dispatcher itself is not part of this model; it is a parameter.
 */
module Trap {
  import opened MachineWord

  datatype Privilege = User | Supervisor

  /** A decoded `scause`: the interrupt bit and the exception or interrupt code. */
  datatype Cause = Exception(code: Usize) | Interrupt(code: Usize)

  /** The SPP bit of `sstatus` (bit 8): set when the trap came from supervisor mode. */
  const SSTATUS_SPP: int := 0x100

  /** The interrupt bit of `scause` on RV64 (bit 63). */
  const SCAUSE_INTERRUPT: int := 0x8000_0000_0000_0000

  // Exception and interrupt codes of `scause` (section 4.1.8, table 4.2).
  const ILLEGAL_INSTRUCTION: Usize := 2
  const STORE_ACCESS_FAULT: Usize := 7
  const USER_ENV_CALL: Usize := 8
  const STORE_PAGE_FAULT: Usize := 15
  const SUPERVISOR_TIMER: Usize := 5

  /** Width of the `ecall` instruction that `sepc` is advanced past. */
  const ECALL_WIDTH: Usize := 4

  // Argument and return registers of the system-call convention: a0..a2 and a7.
  const REG_A0: nat := 10
  const REG_A1: nat := 11
  const REG_A2: nat := 12
  const REG_A7: nat := 17

  type Registers = s: seq<Usize> | |s| == 32 witness seq(32, _ => 0)

  /** The saved trap context: general registers `x0..x31`, `sstatus` and `sepc`. */
  datatype TrapContext = TrapContext(x: Registers, sstatus: Usize, sepc: Usize)

  /** The system-call dispatcher: call number and three arguments to a signed result. */
  type Syscall = (Usize, seq<Usize>) -> Isize

  /** Effects a handler has outside the trap context, in the order it has them. */
  datatype Effect =
    | UpdateUserTime
    | UpdateKernelTime
    | InvokeSyscall(id: Usize, args: seq<Usize>)
    | ExitAndRunNext
    | SuspendAndRunNext
    | SetNextTrigger
    | MarkKernelInterrupt

  /** A handler either returns the (possibly updated) context to resume with, or the
      kernel panics after the effects listed. */
  datatype TrapOutcome =
    | Return(cx: TrapContext, effects: seq<Effect>)
    | Panic(effects: seq<Effect>)

  /** What the kernel does about a trap. */
  datatype TrapAction = SystemCall | KillTask | Preempt | RecordKernelTimer | Halt

  // ---------------------------------------------------------------- decoding

  function PrivilegeOf(sstatus: Usize): (p: Privilege) {
    if (sstatus / SSTATUS_SPP) % 2 == 1 then Supervisor else User
  }

  /** `scause.cause()`: the top bit selects interrupt or exception, the rest is the code. */
  function DecodeScause(bits: Usize): (c: Cause)
    ensures c.code < SCAUSE_INTERRUPT
    ensures c.Interrupt? <==> bits >= SCAUSE_INTERRUPT
    ensures EncodeScause(c) == bits
  {
    if bits >= SCAUSE_INTERRUPT then Interrupt(bits - SCAUSE_INTERRUPT) else Exception(bits)
  }

  /** The register value a cause is reported with; `DecodeScause` inverts it. */
  function EncodeScause(c: Cause): (bits: int) {
    match c
    case Interrupt(code) => SCAUSE_INTERRUPT + code
    case Exception(code) => code
  }

  predicate IsStoreFault(c: Cause) {
    c == Exception(STORE_ACCESS_FAULT) || c == Exception(STORE_PAGE_FAULT)
  }

  predicate IsTimer(c: Cause) {
    c == Interrupt(SUPERVISOR_TIMER)
  }

  /** The action for a cause, by origin. From user mode: an environment call is a
      system call, a store fault or illegal instruction kills the task, a timer
      interrupt preempts it, anything else halts. From supervisor mode only a timer
      interrupt is survivable. */
  function Classify(origin: Privilege, c: Cause): (a: TrapAction)
    ensures a == Halt <==> !(IsTimer(c) || (origin == User && (c == Exception(USER_ENV_CALL) || IsStoreFault(c) || c == Exception(ILLEGAL_INSTRUCTION))))
    ensures a == RecordKernelTimer <==> origin == Supervisor && IsTimer(c)
    ensures a == KillTask <==> origin == User && (IsStoreFault(c) || c == Exception(ILLEGAL_INSTRUCTION))
    ensures a == SystemCall <==> origin == User && c == Exception(USER_ENV_CALL)
    ensures a == Preempt <==> origin == User && IsTimer(c)
  {
    match origin
    case User =>
      if c == Exception(USER_ENV_CALL) then SystemCall
      else if IsStoreFault(c) || c == Exception(ILLEGAL_INSTRUCTION) then KillTask
      else if IsTimer(c) then Preempt
      else Halt
    case Supervisor =>
      if IsTimer(c) then RecordKernelTimer else Halt
  }

  // ---------------------------------------------------------------- handlers

  /** The user path brackets its body with exactly one user-time update, first, and
      exactly one kernel-time update, last. */
  predicate TimeBracketed(effects: seq<Effect>) {
    && |effects| >= 2
    && effects[0] == UpdateUserTime
    && effects[|effects| - 1] == UpdateKernelTime
    && forall i :: 0 < i < |effects| - 1 ==> effects[i] != UpdateUserTime && effects[i] != UpdateKernelTime
  }

  /** No effect on the task manager: no accounting, no suspension, no exit. */
  predicate LeavesTasksAlone(effects: seq<Effect>) {
    forall i :: 0 <= i < |effects| ==>
      effects[i] in {SetNextTrigger, MarkKernelInterrupt}
  }

  /** A system call: step `sepc` past the `ecall`, call the dispatcher with a7 and
      a0..a2, and put its result, as an unsigned word, in a0. */
  function EnvCall(cx: TrapContext, syscall: Syscall): (r: TrapContext)
    ensures r.sepc == WrappingAdd(cx.sepc, ECALL_WIDTH)
    ensures UsizeAsIsize(r.x[REG_A0]) == syscall(cx.x[REG_A7], [cx.x[REG_A0], cx.x[REG_A1], cx.x[REG_A2]])
    ensures forall i :: 0 <= i < 32 && i != REG_A0 ==> r.x[i] == cx.x[i]
    ensures r.sstatus == cx.sstatus
  {
    var stepped := cx.(sepc := WrappingAdd(cx.sepc, ECALL_WIDTH));
    var ret := syscall(stepped.x[REG_A7], [stepped.x[REG_A0], stepped.x[REG_A1], stepped.x[REG_A2]]);
    stepped.(x := stepped.x[REG_A0 := IsizeAsUsize(ret)])
  }

  /** `user_trap_handler`. */
  function UserTrapHandler(cx: TrapContext, c: Cause, syscall: Syscall): (r: TrapOutcome)
    ensures r.Panic? <==> Classify(User, c) == Halt
    ensures r.Panic? ==> r.effects == [UpdateUserTime]
    ensures r.Return? ==> TimeBracketed(r.effects)
    ensures r.Return? && c != Exception(USER_ENV_CALL) ==> r.cx == cx
    ensures c == Exception(USER_ENV_CALL) ==>
              && r.Return? && r.cx == EnvCall(cx, syscall)
              && r.effects[1] == InvokeSyscall(cx.x[REG_A7], [cx.x[REG_A0], cx.x[REG_A1], cx.x[REG_A2]])
    ensures ExitAndRunNext in r.effects <==> IsStoreFault(c) || c == Exception(ILLEGAL_INSTRUCTION)
    ensures SuspendAndRunNext in r.effects <==> IsTimer(c)
    ensures IsTimer(c) ==> r.effects == [UpdateUserTime, SetNextTrigger, SuspendAndRunNext, UpdateKernelTime]
    ensures IsStoreFault(c) || c == Exception(ILLEGAL_INSTRUCTION) ==>
              r.effects == [UpdateUserTime, ExitAndRunNext, UpdateKernelTime]
    ensures c == Exception(USER_ENV_CALL) ==>
              r.effects == [UpdateUserTime, InvokeSyscall(cx.x[REG_A7], [cx.x[REG_A0], cx.x[REG_A1], cx.x[REG_A2]]), UpdateKernelTime]
  {
    match Classify(User, c)
    case SystemCall =>
      var args := [cx.x[REG_A0], cx.x[REG_A1], cx.x[REG_A2]];
      Return(EnvCall(cx, syscall), [UpdateUserTime, InvokeSyscall(cx.x[REG_A7], args), UpdateKernelTime])
    case KillTask =>
      Return(cx, [UpdateUserTime, ExitAndRunNext, UpdateKernelTime])
    case Preempt =>
      Return(cx, [UpdateUserTime, SetNextTrigger, SuspendAndRunNext, UpdateKernelTime])
    case _ =>
      Panic([UpdateUserTime])
  }

  /** `kernel_trap_handler`: a timer interrupt that arrives while the kernel runs is
      recorded and the timer rearmed, nothing more; every other cause panics. */
  function KernelTrapHandler(cx: TrapContext, c: Cause): (r: TrapOutcome)
    ensures r.Return? <==> IsTimer(c)
    ensures r.Return? ==> r.cx == cx && LeavesTasksAlone(r.effects)
    ensures r.Return? ==> r.effects == [MarkKernelInterrupt, SetNextTrigger]
    ensures r.Panic? ==> r.effects == []
  {
    match Classify(Supervisor, c)
    case RecordKernelTimer => Return(cx, [MarkKernelInterrupt, SetNextTrigger])
    case _ => Panic([])
  }

  /** `trap_handler`: the live `sstatus` and `scause` decide the path. */
  function TrapHandler(cx: TrapContext, sstatus: Usize, scause: Usize, syscall: Syscall): (r: TrapOutcome)
    ensures PrivilegeOf(sstatus) == User ==> r == UserTrapHandler(cx, DecodeScause(scause), syscall)
    ensures PrivilegeOf(sstatus) == Supervisor ==> r == KernelTrapHandler(cx, DecodeScause(scause))
    ensures r.Return? && r.cx != cx ==> PrivilegeOf(sstatus) == User && DecodeScause(scause) == Exception(USER_ENV_CALL)
  {
    var c := DecodeScause(scause);
    match PrivilegeOf(sstatus)
    case User => UserTrapHandler(cx, c, syscall)
    case Supervisor => KernelTrapHandler(cx, c)
  }
}

=== FILE: utf8.dfy ===
/** Well-formed UTF-8 (section 4 of RFC 3629), the test `core::str::from_utf8`
    applies before a payload may be printed as text.
 */
module Utf8 {
  import opened MachineWord

  predicate IsTail(b: Byte) {
    0x80 <= b <= 0xBF
  }

  /** Length of the well-formed encoded character at the head of `s`, or 0 when the
      head is not one. The second byte's range is narrowed after E0, ED, F0 and F4 so
      that overlong forms, surrogates and values above U+10FFFF are refused. */
  function HeadLength(s: seq<Byte>): (n: nat)
    ensures n <= |s| && n <= 4
    ensures |s| > 0 ==> (n == 1 <==> s[0] < 0x80)
  {
    if |s| == 0 then 0
    else
      var b := s[0];
      if b < 0x80 then 1
      else if 0xC2 <= b <= 0xDF then
        (if |s| >= 2 && IsTail(s[1]) then 2 else 0)
      else if b == 0xE0 then
        (if |s| >= 3 && 0xA0 <= s[1] <= 0xBF && IsTail(s[2]) then 3 else 0)
      else if 0xE1 <= b <= 0xEC || 0xEE <= b <= 0xEF then
        (if |s| >= 3 && IsTail(s[1]) && IsTail(s[2]) then 3 else 0)
      else if b == 0xED then
        (if |s| >= 3 && 0x80 <= s[1] <= 0x9F && IsTail(s[2]) then 3 else 0)
      else if b == 0xF0 then
        (if |s| >= 4 && 0x90 <= s[1] <= 0xBF && IsTail(s[2]) && IsTail(s[3]) then 4 else 0)
      else if 0xF1 <= b <= 0xF3 then
        (if |s| >= 4 && IsTail(s[1]) && IsTail(s[2]) && IsTail(s[3]) then 4 else 0)
      else if b == 0xF4 then
        (if |s| >= 4 && 0x80 <= s[1] <= 0x8F && IsTail(s[2]) && IsTail(s[3]) then 4 else 0)
      else 0
  }

  /** `s` splits into well-formed encoded characters. */
  predicate Valid(s: seq<Byte>)
    decreases |s|
  {
    |s| == 0 || (HeadLength(s) > 0 && Valid(s[HeadLength(s)..]))
  }

  /** Plain ASCII is always valid text. */
  lemma {:induction false} AsciiIsValid(s: seq<Byte>)
    requires forall i :: 0 <= i < |s| ==> s[i] < 0x80
    ensures Valid(s)
    decreases |s|
  {
    if |s| > 0 {
      AsciiIsValid(s[1..]);
    }
  }
}
